=== FILE: README.md ===
# ResourceStrategy, modelled in Dafny

`ResourceStrategy` manages the file behind one attribute of a Yii model record.

- **Staging.** A fresh upload is staged into a flat temp folder under a random hash name. The attribute then holds the relative temp path.
- **Promotion.** `saveResource` copies a staged file into a sharded store. The shard directory is derived from the first six characters of a new hash, as `/ab/cd/ef/`. A name already taken is renamed `stem_N.ext`. The attribute becomes the bare stored name, and the name it replaces is kept in a private `oldResource` slot.
- **Moving back.** `deleteResource` and `deleteOldResource` move a stored file back to the temp folder, with every derivative `stem.*.ext` that sits beside it.

The project has the following modules:

- `Strings`: the PHP string built-ins the class relies on. These are `trim`/`ltrim`/`rtrim`, `str_replace`, `strpos`, `pathinfo` and decimal formatting.
- `Listing`: code-point order and the sorted listing of a set. This is the order `glob` returns.
- `FileSystem`: the filesystem as a map from absolute path to content. It also covers `glob` with one `*` that never crosses a separator, and the `unlink`-then-`rename` step (`Relocate`).
- `Paths`: pure path derivation. This covers `getPathFromHash`, `getStorePath`, `getFolderPath`, `getTempPath`, the resolution of a string attribute to a path, and `isTemp` on a name.
- `Lifecycle`: the record attribute, `oldResource`, the errors and the files as one `State`. Each PHP method is a pure step that returns the new state and the method's `?bool`/string result.
- `Properties`: what the life cycle guarantees, stated over those steps.
- `Strategy`: the class `ResourceStrategy`, whose fields the methods update in place. Every public method, and each private one with a `Lifecycle` counterpart, is proved to leave exactly the state, and return exactly the value, of its `Lifecycle` step. `StoreResource` is proved so only on the temp string value it is called with. The helpers `Rename`, `FreeName` and `Adopt` are tied to `FileSystem.Relocate`, `Lifecycle.CollisionName` and the field updates of a successful copy. The `foreach` over derivatives is a loop with its invariant.

Where the outside world decides, the model takes parameters:

- `hash` / `newHash` are what `generateHash()` returns.
- `saveOk` is whether `UploadedFile::saveAs` succeeds.
- `retryHash` / `retryOk` are the same two outcomes for a second staging attempt (see below).
- `copyOk` is whether `copy` succeeds when its source exists.
- `ok(src)` is whether `rename` of `src` succeeds. A rename also needs its source to exist. The oracle is keyed by the source path, so within one call a second rename of the same source repeats the first one's outcome (this can happen only in `deleteOldResource`, whose two moves may reach the same file).
- The value of the `@webroot` alias is a field of `Config`.

Every read of a pending upload through `getResourceName` is a staging attempt of its own, with its own hash and `saveAs` outcome. Only `getResourcePath` can make two attempts in one call. `isTemp()` makes the first. When that `saveAs` fails, the attribute is still an upload handle, so the path getter makes a second. `Lifecycle.Locate` and `GetResourcePath` therefore take the outcome of each attempt. Every other public method makes at most one attempt per call: `saveResource` stops after a failed upload, and after a successful one the attribute is a string.

Two behaviours of the code, modelled as written:

- **Shard path.** `getPathFromHash` (ResourceStrategy.php:32-37) does not pad. A name with fewer than six separator-free characters gets fewer than three segments. `Paths.PathFromHashSegments` states the number of segments produced.
- **deleteOldResource result.** At ResourceStrategy.php:175 a non-null second result replaces any first result that is not `false`. So a later `false` overrides an earlier `true`, and a later `true` overrides an earlier null. `Properties.CombineCases` states the fold.

## Model

| member | source | states |
|---|---|---|
| Strings.RemoveChar | ResourceStrategy.php:34 | removing the separators leaves no separator and shortens the string by the number of separators it held |
| Strings.Truthy | ResourceStrategy.php:172 | PHP truthiness of a string, used by the tests at :164, :172 and :192: false exactly for "" and "0" |
| Strings.Trim | ResourceStrategy.php:41 | the trimmed string neither starts nor ends with the trimmed character, and a string without it is unchanged |
| Strings.TrimMiddle | ResourceStrategy.php:41 | trim removes only a leading and a trailing run of the character, and keeps everything between them in place |
| Strings.TrimLeft | ResourceStrategy.php:46 | ltrim drops only a run of the character at the front, and what remains does not start with it |
| Strings.TrimWrapped | ResourceStrategy.php:51 | trimming `/x/` gives back x when x has no separator at either end |
| Strings.RemoveAll | ResourceStrategy.php:58 | str_replace with "" never lengthens the subject and leaves it unchanged when the pattern does not occur |
| Strings.RemoveAllScan | ResourceStrategy.php:58 | str_replace with "" removes an occurrence at the front and continues after it, and keeps a character that starts no occurrence and continues after it, so every occurrence is removed |
| Strings.RemoveAllPrefix | ResourceStrategy.php:58 | removing the temp folder from temp folder + name gives the name back when the name does not contain it |
| Strings.ContainsIff | ResourceStrategy.php:81 | `strpos(...) !== false` holds exactly when the needle occurs at some index |
| Strings.Basename | ResourceStrategy.php:200 | the basename holds no separator; a separator-free path is its own basename (BasenameOfPlain), and dir . name has basename name (BasenameUnder) |
| Strings.Extension | ResourceStrategy.php:128 | the PATHINFO_EXTENSION part holds neither a separator nor a dot, and is "" for a basename without a dot |
| Strings.Filename | ResourceStrategy.php:137 | the PATHINFO_FILENAME part holds no separator, and is the whole basename when the basename has no dot |
| Strings.PathinfoSplits | ResourceStrategy.php:137-138 | a base name with a dot is its filename, a dot and its extension |
| Strings.PathinfoOfJoined | ResourceStrategy.php:138 | pathinfo of stem.ext gives back stem and ext when ext has no dot |
| Strings.DecimalRoundTrip | ResourceStrategy.php:138 | the decimal rendering of a count reads back as that count |
| Strings.DecimalNoLeadingZero | ResourceStrategy.php:138 | the decimal rendering of a count starts with 0 only for the count 0 |
| Listing.Sorted | ResourceStrategy.php:200 | a listing holds every member of the set once, in strictly increasing code-point order |
| FileSystem.MatchesIff | ResourceStrategy.php:200 | a path matches dir.pre*suf exactly when it is dir, pre, a separator-free middle, then suf |
| FileSystem.Glob | ResourceStrategy.php:137 | glob lists exactly the files that match the pattern, each once, in sorted order |
| FileSystem.Relocate | ResourceStrategy.php:195-196 | the rename succeeds exactly when allowed, present and not onto itself; on success the content moves to the destination, on failure nothing is left at the destination; no other path changes |
| FileSystem.SweepFrame | ResourceStrategy.php:201-206 | the derivative loop leaves alone every path that is neither a listed image nor its temp destination |
| FileSystem.Sweep | ResourceStrategy.php:201-206 | the foreach over the listing, relocating one image after another to temp . image; what it does to each path is stated by SweepFrame and SweepEach |
| FileSystem.SweepEach | ResourceStrategy.php:201-206 | over an unaliased listing, each image ends up at temp . image exactly when its rename succeeds, and otherwise stays put with nothing at temp . image |
| FileSystem.GlobUnaliased | ResourceStrategy.php:200-202 | a glob listing never holds an image together with its own temp destination, because the destination has more separators |
| FileSystem.GlobSweep | ResourceStrategy.php:200-206 | every glob match is relocated to temp . match when its rename succeeds and stays otherwise |
| FileSystem.MatchDirectory | ResourceStrategy.php:200 | a glob match written as another directory followed by a separator-free name lies in the glob's own directory |
| FileSystem.GlobSweepFrame | ResourceStrategy.php:200-206 | the loop over a glob listing changes only matches and their temp destinations |
| Paths.ShardKey | ResourceStrategy.php:34-35 | the shard key has no separator and is the first min(n, 6) of the name's n separator-free characters, with no padding |
| Paths.PairsKeeps | ResourceStrategy.php:36 | splitting into pairs keeps the characters in order |
| Paths.PairsCount | ResourceStrategy.php:36 | splitting into pairs adds one separator between consecutive pairs |
| Paths.PairsLayout | ResourceStrategy.php:36 | a separator follows every second character and appears nowhere else, and the other positions hold the key's characters in order, so every segment but the last holds two characters |
| Paths.PairsEnds | ResourceStrategy.php:36 | the joined pairs are empty only for an empty key and never start or end with a separator |
| Paths.PathFromHash | ResourceStrategy.php:36 | the shard path starts and ends with a separator |
| Paths.PathFromHashKeeps | ResourceStrategy.php:32-37 | dropping the separators from the shard path gives back exactly the shard key |
| Paths.PathFromHashEmpty | ResourceStrategy.php:32-37 | a name with no separator-free characters gets `//` |
| Paths.PathFromHashSegments | ResourceStrategy.php:32-37 | a key of n characters gives ceil(n/2) segments; in terms of the name, n < 6 separator-free characters give ceil(n/2) segments and more give three, with no padding |
| Paths.PathFromHashSix | ResourceStrategy.php:32-37 | with six separator-free characters c0..c5 the shard path is `/c0c1/c2c3/c4c5/` |
| Paths.ShardKeyOfExtension | ResourceStrategy.php:34-35 | a name extending a six-character separator-free prefix has that prefix as its shard key |
| Paths.FolderPathEndsWithSep | ResourceStrategy.php:44-47 | the shard directory ends with a separator |
| Paths.StorePath | ResourceStrategy.php:39-42 | the store folder between single separators; its place in every shard directory is stated by FolderPathSix |
| Paths.FolderPath | ResourceStrategy.php:44-47 | [webroot] . store folder . the shard path without its leading separator; it ends with a separator (FolderPathEndsWithSep) and is /store/c0c1/c2c3/c4c5/ for six characters (FolderPathSix) |
| Paths.FolderPathSix | ResourceStrategy.php:44-47 | the shard directory is [webroot]/<store>/c0c1/c2c3/c4c5/ |
| Paths.FolderPathUnderWebroot | ResourceStrategy.php:46 | the absolute shard directory is the relative one under the web root |
| Paths.TempPath | ResourceStrategy.php:49-52 | the temp folder is non-empty, holds a separator and ends with one |
| Paths.TempPathUnderWebroot | ResourceStrategy.php:51 | the absolute temp folder is the relative one under the web root |
| Paths.TempNeedle | ResourceStrategy.php:81 | the needle isTemp searches for is the configured temp folder without surrounding separators |
| Paths.IsTempNameIff | ResourceStrategy.php:77-82 | a name is temp exactly when the trimmed temp folder occurs in it at some index, anywhere and not only as a prefix |
| Paths.IsTempAnywhere | ResourceStrategy.php:77-82 | any name containing the trimmed temp folder counts as temp |
| Paths.StagedNameIsTemp | ResourceStrategy.php:109 | the value staging records counts as temp |
| Paths.StagedNameResolves | ResourceStrategy.php:54-59 | the staged value resolves to the file inside the temp folder, relative or absolute |
| Paths.ResourceTempPath | ResourceStrategy.php:54-59 | the temp folder . the name with the relative temp folder removed and trimmed; a staged value comes back as its file (StagedNameResolves) |
| Paths.ResourceFolderPath | ResourceStrategy.php:61-66 | the name inside its own shard directory; a name is never its own derivative there (Properties.NameIsNoDerivative) |
| Paths.IsTempName | ResourceStrategy.php:77-82 | strpos of the trimmed temp folder in the name; characterised by IsTempNameIff |
| Paths.ResolvePath | ResourceStrategy.php:84-91 | getResourcePath on a string: the temp path when the name is temp, else the shard path; getResourcePath agrees with it on strings (Lifecycle.LocateOnValue) |
| Lifecycle.LocateOnValue | ResourceStrategy.php:84-91 | getResourcePath on a string attribute changes nothing and yields that string's resolved path |
| Lifecycle.UploadStep | ResourceStrategy.php:93-123 | the uploadResource step; its outcomes are stated by Properties.UploadOnPending, UploadOnValue and StagingSettles |
| Lifecycle.Resolve | ResourceStrategy.php:68-75 | getResourceName: stage a pending upload, then read the attribute as a string; its use in deleteResource is stated by Properties.DeleteMovesResolvedName |
| Lifecycle.IsTemp | ResourceStrategy.php:77-82 | isTemp: IsTempName of the resolved name, in the state after resolving; a staged value is temp (Properties.StagedUploadLocates) |
| Lifecycle.Locate | ResourceStrategy.php:84-91 | getResourcePath with one staging outcome per read; stated by LocateOnValue, Properties.LocateReadsOneName and LocateAfterRetry |
| Lifecycle.CollisionName | ResourceStrategy.php:136-139 | the collision rename; its shape is stated by Properties.CollisionNameShape, CollisionNameExtends and CollisionNotRechecked |
| Lifecycle.SaveStep | ResourceStrategy.php:125-154 | the saveResource step; stated by Properties.SaveOnFailedUpload, SaveIgnoresStoredName, SaveWithoutTempFile, SaveOnStagedValue and UploadThenSave |
| Lifecycle.StoreStep | ResourceStrategy.php:128-150 | the promotion of a temp string value; stated by Properties.SaveOnStagedValue and PromotedNameResolves |
| Lifecycle.MovePrimary | ResourceStrategy.php:191-197 | the primary rename of moveResourceToTemp; stated by MovePrimaryEffect |
| Lifecycle.MoveToTemp | ResourceStrategy.php:181-209 | moveResourceToTemp; stated by Properties.MoveKeepsPrimary, MoveSweepsDerivative and MoveFrame |
| Lifecycle.AddError | ResourceStrategy.php:112 | addError on the attribute: the message is appended to the errors and nothing else changes |
| Lifecycle.Derivatives | ResourceStrategy.php:200 | the glob of stem.*.ext in the name's shard directory; what the sweep over it does is stated by Properties.DerivativeSwept and MoveSweepsDerivative |
| Lifecycle.DeleteStep | ResourceStrategy.php:156-159 | the deleteResource step; stated by Properties.DeleteMovesResolvedName |
| Lifecycle.Combine | ResourceStrategy.php:175 | the fold of the two move results; stated by Properties.CombineCases |
| Lifecycle.ReleaseStep | ResourceStrategy.php:163-166 | the first half of deleteOldResource; stated by Properties.DeleteOldClears |
| Lifecycle.DeleteOldStep | ResourceStrategy.php:161-179 | the deleteOldResource step; stated by Properties.DeleteOldClears, DeleteOldSkipsPersisted, DeleteOldOnlyPersisted and DeleteOldBothMoves |
| Lifecycle.MovePrimaryEffect | ResourceStrategy.php:191-197 | the primary move returns null for a falsy or missing name and otherwise whether the rename succeeded; on true the file is now in the temp folder, on false nothing is there; on null the filesystem is unchanged; no other path changes |
| Properties.StagedUploadLocates | ResourceStrategy.php:97-110 | a successful staging writes the upload into the temp folder, and the recorded value counts as temp and resolves to that file |
| Properties.UploadOnPending | ResourceStrategy.php:97-114 | on an upload handle the result is saveAs's outcome: on success the file is written and the attribute set to its relative temp path, on failure only "Cant save new file" is added |
| Properties.StagingSettles | ResourceStrategy.php:115-122 | after a successful staging, another uploadResource finds the temp file and changes nothing |
| Properties.LocateReadsOneName | ResourceStrategy.php:84-91 | on a string attribute, after a first staging attempt that succeeds, or when the retry fails too, both reads of the resource name inside getResourcePath agree, so the path is the resolution of one name |
| Properties.LocateAfterRetry | ResourceStrategy.php:84-91 | when isTemp()'s staging fails and the path getter's retry succeeds, the upload is staged under the retry's hash with one "Cant save new file"; the temp test was made on the client name, so for a client name that does not look temp the path misses the staged file, and for one that does it is that file |
| Properties.UploadOnValue | ResourceStrategy.php:115-122 | on a string, uploadResource returns false with "No temp file" exactly when the value is temp and its file is missing, and otherwise null with no change |
| Properties.SaveIgnoresStoredName | ResourceStrategy.php:127 | a stored (non-temp) value is left alone and the result is null |
| Properties.SaveOnFailedUpload | ResourceStrategy.php:125-127 | on an upload whose staging fails the result is null, with only "Cant save new file" added and nothing stored |
| Properties.SaveWithoutTempFile | ResourceStrategy.php:127 | a temp value without its file yields null, with only "No temp file" added |
| Properties.SaveOnStagedValue | ResourceStrategy.php:127-150 | a temp value with its file is copied into the new shard under the collision-checked name, the attribute takes that name and oldResource the previous value; a failed copy only adds "Cant move file from temp"; the staged file is kept |
| Properties.PromotedNameResolves | ResourceStrategy.php:141-146 | after promotion the new attribute, unless it contains the temp folder's name, resolves to the file the copy wrote |
| Properties.StageThenPromote | ResourceStrategy.php:125-127 | saveResource on an upload is staging followed by saveResource on the staged value |
| Properties.StagedExtension | ResourceStrategy.php:128 | the extension read back from the staged value is the upload's |
| Properties.UploadThenSave | ResourceStrategy.php:125-154 | on a fresh upload saveResource stages it and copies it into the second hash's shard, returning true; the attribute is the stored name and oldResource the staged temp path |
| Properties.CollisionNameShape | ResourceStrategy.php:136-139 | a free name is kept; a taken stem.ext becomes stem_N.ext, N being the number of stem_*.ext files; the extension is kept and no separator appears |
| Properties.ShardOfCommonPrefix | ResourceStrategy.php:131 | names sharing a six-character separator-free prefix share their shard directory |
| Properties.CollisionNameExtends | ResourceStrategy.php:136-139 | the chosen name starts with the stem it was built from |
| Properties.RenamedNameKeepsShard | ResourceStrategy.php:131-141 | the renamed name lives in the shard directory the original name was checked in |
| Properties.GlobOfPair | ResourceStrategy.php:137 | glob in a directory holding the taken name and one match counts one file |
| Properties.NumberedMatches | ResourceStrategy.php:137 | stem.ext does not match stem_*.ext, and stem_d.ext does |
| Properties.CollisionExample | ResourceStrategy.php:136-139 | a1b2c3.jpg beside a1b2c3_0.jpg becomes a1b2c3_1.jpg |
| Properties.CollisionNotRechecked | ResourceStrategy.php:136-143 | beside stem_1.ext alone, stem.ext is renamed to stem_1.ext, which is already taken, so the copy overwrites it |
| Properties.NameIsNoDerivative | ResourceStrategy.php:191-200 | a file never matches its own derivative pattern stem.*.ext |
| Properties.NotOwnPattern | ResourceStrategy.php:200 | in any directory, a name does not match the stem.*.ext pattern built from itself |
| Properties.DerivativeSwept | ResourceStrategy.php:200-206 | each derivative goes to tempFolder . its full path when its rename succeeds, and stays otherwise |
| Properties.MoveSweepsDerivative | ResourceStrategy.php:181-209 | moveResourceToTemp relocates every derivative whose rename succeeds, whether or not the primary file existed |
| Properties.MoveFrame | ResourceStrategy.php:181-209 | moveResourceToTemp changes only the primary file, its temp destination, the derivatives and their temp destinations |
| Properties.TempNameIsNoDerivative | ResourceStrategy.php:193-200 | the temp destination of a separator-free name never matches its derivative pattern |
| Properties.MoveKeepsPrimary | ResourceStrategy.php:181-209 | for a separator-free name, after the whole move, derivatives included: true leaves the stored content at tempFolder . name and the stored path gone; false leaves the stored file in place and nothing at the temp path; null leaves both paths as they were |
| Properties.DeleteMovesResolvedName | ResourceStrategy.php:156-159 | deleteResource moves the name getResourceName reads: attribute and errors are those of that read, oldResource is untouched, the result is the primary move's status, and for a separator-free name each status has the file effect MoveKeepsPrimary states (true: content at tempFolder . name and the stored path gone; false: stored file in place, nothing at the temp path; null: both paths unchanged) |
| Properties.CombineCases | ResourceStrategy.php:175 | the result is false when either move returned false, true when a later true or an earlier true is followed by null, null only when both are null |
| Properties.DeleteOldClears | ResourceStrategy.php:163-166 | oldResource is cleared exactly when it is truthy and its move returns true; attribute and errors are untouched |
| Properties.DeleteOldSkipsPersisted | ResourceStrategy.php:168-178 | with an empty persisted value, or one equal to the attribute, only oldResource is moved and its status is the result |
| Properties.DeleteOldOnlyPersisted | ResourceStrategy.php:161-179 | with no oldResource the result and the files are those of moving the persisted value |
| Properties.DeleteOldBothMoves | ResourceStrategy.php:161-179 | when both moves run, the files are those after both, oldResource is forgotten exactly when its move returned true, and the result is false when either move returned false, null only when both did, true otherwise |
| Properties.OldTempValueMissesStagedFile | ResourceStrategy.php:191 | the primary path derived from a staged temp value never names the staged file, so deleteOldResource does not move it as the primary |
| Properties.OldTempValueSparesStagedFile | ResourceStrategy.php:181-209 | moving that staged temp value to the temp folder leaves the staged file as it was: it is neither the primary, nor a derivative, nor a derivative's temp destination |
| Strategy.ResourceStrategy.constructor | ResourceStrategy.php:19-25 | a new strategy holds its configuration and the attribute, with no oldResource and no errors |
| Strategy.ResourceStrategy.AddError | ResourceStrategy.php:112 | addError appends one message and changes nothing else |
| Strategy.ResourceStrategy.Rename | ResourceStrategy.php:195-196 | the files afterwards and the rename's result are those of Relocate |
| Strategy.ResourceStrategy.UploadResource | ResourceStrategy.php:93-123 | the new state and result are those of the staging step |
| Strategy.ResourceStrategy.GetResourceName | ResourceStrategy.php:68-75 | stages an upload handle first, then yields the attribute as a string |
| Strategy.ResourceStrategy.IsTemp | ResourceStrategy.php:77-82 | the result is whether the resolved name is temp |
| Strategy.ResourceStrategy.GetResourceTempPath | ResourceStrategy.php:54-59 | the path is the resolved name's temp path |
| Strategy.ResourceStrategy.GetResourceFolderPath | ResourceStrategy.php:61-66 | the path is the resolved name inside its shard directory |
| Strategy.ResourceStrategy.GetResourcePath | ResourceStrategy.php:84-91 | the new state and path are those of the locate step |
| Strategy.ResourceStrategy.SaveResource | ResourceStrategy.php:125-154 | the new state and result are those of the save step, whose properties are proved above |
| Strategy.ResourceStrategy.StoreResource | ResourceStrategy.php:128-150 | on a temp string value, the new state and result are those of the promotion step |
| Strategy.ResourceStrategy.FreeName | ResourceStrategy.php:136-139 | the chosen name is the collision-checked name, and nothing changes |
| Strategy.ResourceStrategy.Adopt | ResourceStrategy.php:143-146 | the copy's content is at the new path, oldResource holds the previous value and the attribute the new name |
| Strategy.ResourceStrategy.MovePrimaryFile | ResourceStrategy.php:191-197 | the files and status are those of the primary move |
| Strategy.ResourceStrategy.MoveImages | ResourceStrategy.php:201-206 | after the loop the files are those of the derivative sweep over the whole listing |
| Strategy.ResourceStrategy.MoveResourceToTemp | ResourceStrategy.php:181-209 | the files and status are those of moving the primary file and then its derivatives |
| Strategy.ResourceStrategy.DeleteResource | ResourceStrategy.php:156-159 | the new state and result are those of moving the resolved name to the temp folder |
| Strategy.ResourceStrategy.ReleaseOldResource | ResourceStrategy.php:163-166 | the new state and status are those of moving oldResource and forgetting it on success |
| Strategy.ResourceStrategy.DeleteOldResource | ResourceStrategy.php:161-179 | the new state and result are those of the deleteOldResource step, whose properties are proved above |

## Left out

- generateHash: `md5(time() . uniqid())` depends on the clock and randomness. Every hash is a parameter instead.
- `Yii::getAlias('@webroot')` is a framework lookup. Its value is the `webroot` field of `Config`.
- `chmod` after staging: permissions are not part of the filesystem model.
- `FileHelper::createDirectory` and `is_dir`: directories are not represented. Creating one changes no file, and a directory is never a file in the map, so `file_exists` on a directory path is false in the model.
- A null attribute: `getResourceName` (ResourceStrategy.php:68-75) would fail on its `string` return type. In the model the attribute is always an upload handle or a string.
- An absent persisted value is read as null at ResourceStrategy.php:170 and skipped at :172, exactly as "" and "0" are. The model passes "" for it.
- `substr` and `str_split` (ResourceStrategy.php:35-36) count bytes, while the model counts characters. A name with multi-byte UTF-8 characters among its first six gets a different shard in PHP than in the model.
- `strpos` with an empty needle (ResourceStrategy.php:81) is modelled as in PHP 8: the needle is found at offset 0, so every name is temp. PHP 7 returns false there, so no name would be temp. The needle is empty when the temp folder setting is empty or only separators.
- Properties.DeleteMovesResolvedName: states the file effect for separator-free names only, for the same reason as MoveKeepsPrimary. A name resolved from a staged upload is a temp-relative path holding separators, so deleteResource on a pending upload is covered only by its status and its attribute, errors and oldResource.
- Properties.MoveKeepsPrimary: covers separator-free names only, which are what saveResource stores. For a name holding separators (a temp-relative value) the primary path and a derivative's temp destination are not shown to differ, so the end-to-end outcome is not promised.
- PHP truthiness is modelled for strings only ("" and "0" are false). The loose `!=` of deleteOldResource is modelled as string inequality, so numeric-string equality such as "1e1" == "10" is not captured.
- `glob` metacharacters (`?`, `[`, `*`) inside names and extensions are taken literally. The sort order is by code point.
- A failing `unlink` is not modelled: the model assumes unlink always succeeds.
- `rename` and `copy` outcomes beyond "the source exists" are oracles. A missing target directory, permissions and cross-device moves are therefore reached only through `ok`, `saveOk` and `copyOk`.
- `copy` onto its own source: PHP's `copy()` compares the two files' device and inode and returns false without copying. The model does not compare them: `copyOk` decides, and a success is an overwrite with the same content. Source and target can coincide only when a shard directory is the temp folder.
- Concurrency: another process changing the folders between two steps is not modelled. Nothing here is atomic.
- Paths are compared as strings. `.`, `..` and doubled separators are not normalised.
- The internals of `yii\web\UploadedFile` are left out. An upload is its client name, its extension and its content. Read as a string it gives its client name.
- The record's error list is the errors added for this one attribute, oldest first. The attribute key `addError` receives is not modelled.
- Strategy.ResourceStrategy.StoreResource, Strategy.ResourceStrategy.MovePrimaryFile, Strategy.ResourceStrategy.MoveImages, Strategy.ResourceStrategy.ReleaseOldResource and Strategy.ResourceStrategy.Forget are separate methods here, but in the source each is part of one PHP method (saveResource, moveResourceToTemp and deleteOldResource).

=== FILE: filesystem.dfy ===
/** The filesystem as the strategy sees it: a map from absolute file path to content, the glob
    patterns it lists files with, and the unlink-then-rename step it relocates files with. */
module FileSystem {
  import opened Strings
  import opened Listing

  type Bytes = seq<bv8>

  /** Absolute path to file content. Directories are not represented: creating one changes nothing. */
  type Files = map<string, Bytes>

  /** p is absent from both a and b, or present in both with the same content. */
  predicate SameAt(a: Files, b: Files, p: string) {
    (p in a <==> p in b) && (p in a && p in b ==> a[p] == b[p])
  }

  /** path matches the glob pattern dir . pre . '*' . suf, where the wildcard stands for any
      run of characters without a separator. */
  predicate Matches(path: string, dir: string, pre: string, suf: string) {
    var head := dir + pre;
    |head| + |suf| <= |path| && path[..|head|] == head && path[|path| - |suf|..] == suf
    && Sep !in path[|head|..|path| - |suf|]
  }

  /** Matches is exactly "dir, pre, a separator-free middle, then suf". */
  lemma MatchesIff(path: string, dir: string, pre: string, suf: string)
    ensures Matches(path, dir, pre, suf) <==> exists mid :: Sep !in mid && path == dir + pre + mid + suf
  {
    var head := dir + pre;
    if Matches(path, dir, pre, suf) {
      var mid := path[|head|..|path| - |suf|];
      assert path == path[..|head|] + mid + path[|path| - |suf|..];
      assert path == dir + pre + mid + suf;
    }
    if exists mid :: Sep !in mid && path == dir + pre + mid + suf {
      var mid :| Sep !in mid && path == dir + pre + mid + suf;
      assert path == head + mid + suf;
      assert path[..|head|] == head;
      assert path[|path| - |suf|..] == suf;
      assert path[|head|..|path| - |suf|] == mid;
    }
  }

  /** A path under dir that matches a separator-free prefix and suffix has a separator-free
      remainder at least as long as both. */
  lemma MatchedRemainder(dir: string, name: string, pre: string, suf: string)
    requires Matches(dir + name, dir, pre, suf) && Sep !in pre && Sep !in suf
    ensures Sep !in name && |pre| + |suf| <= |name|
  {
    var path := dir + name;
    var mid := path[|dir + pre|..|path| - |suf|];
    assert path == path[..|dir + pre|] + mid + path[|path| - |suf|..];
    assert path == dir + (pre + mid + suf);
    assert path[|dir|..] == name;
    assert path[|dir|..] == pre + mid + suf;
  }

  /** The files glob(dir . pre . '*' . suf) finds. */
  function GlobSet(fs: Files, dir: string, pre: string, suf: string): set<string> {
    set p | p in fs && Matches(p, dir, pre, suf)
  }

  /** glob(dir . pre . '*' . suf): every matching file once, in code-point order. */
  function Glob(fs: Files, dir: string, pre: string, suf: string): (r: seq<string>)
    ensures forall p :: p in r <==> p in fs && Matches(p, dir, pre, suf)
    ensures forall i, j :: 0 <= i < j < |r| ==> Below(r[i], r[j]) && r[i] != r[j]
  {
    Sorted(GlobSet(fs, dir, pre, suf))
  }

  datatype Moved = Moved(files: Files, ok: bool)

  /** `if (file_exists($dst)) unlink($dst); @rename($src, $dst)`. The rename succeeds when the
      platform lets it (renameOk) and the source is still there after the unlink. */
  function Relocate(fs: Files, src: string, dst: string, renameOk: bool): (m: Moved)
    ensures m.ok <==> renameOk && src in fs && src != dst
    ensures m.ok ==> src !in m.files && dst in m.files && m.files[dst] == fs[src]
    ensures !m.ok ==> dst !in m.files && (src != dst ==> SameAt(m.files, fs, src))
    ensures forall p :: p != src && p != dst ==> SameAt(m.files, fs, p)
  {
    var kept := fs - {dst};
    if renameOk && src in kept then Moved((kept - {src})[dst := kept[src]], true)
    else Moved(kept, false)
  }

  /** The derivative loop: every listed image, in order, is relocated to temp . image. */
  function Sweep(fs: Files, temp: string, images: seq<string>, ok: string -> bool): Files
    decreases |images|
  {
    if images == [] then fs
    else
      var last := images[|images| - 1];
      Relocate(Sweep(fs, temp, images[..|images| - 1], ok), last, temp + last, ok(last)).files
  }

  /** A path that is neither a listed image nor the temp destination of one is left alone. */
  lemma {:induction false} SweepFrame(fs: Files, temp: string, images: seq<string>, ok: string -> bool, p: string)
    requires p !in images
    requires forall x :: x in images ==> p != temp + x
    ensures SameAt(Sweep(fs, temp, images, ok), fs, p)
    decreases |images|
  {
    if images != [] {
      var init := images[..|images| - 1];
      assert forall x :: x in init ==> x in images;
      SweepFrame(fs, temp, init, ok, p);
    }
  }

  /** No image is listed twice and no image is the temp destination of another. */
  predicate Unaliased(images: seq<string>, temp: string) {
    && temp != []
    && (forall i, j :: 0 <= i < j < |images| ==> images[i] != images[j])
    && (forall a, b :: a in images && b in images ==> a != temp + b)
  }

  /** Over an unaliased listing, each image ends up at temp . image exactly when its rename
      succeeds, and otherwise stays where it was with nothing left at temp . image. */
  lemma {:induction false} SweepEach(fs: Files, temp: string, images: seq<string>, ok: string -> bool, k: nat)
    requires Unaliased(images, temp) && k < |images|
    ensures var img := images[k]; var r := Sweep(fs, temp, images, ok);
      if ok(img) && img in fs then img !in r && temp + img in r && r[temp + img] == fs[img]
      else SameAt(r, fs, img) && temp + img !in r
    decreases |images|
  {
    var n := |images|;
    var init := images[..n - 1];
    var img := images[k];
    var last := images[n - 1];
    var prev := Sweep(fs, temp, init, ok);
    assert Sweep(fs, temp, images, ok) == Relocate(prev, last, temp + last, ok(last)).files;
    if k == n - 1 {
      SweepLastFrame(fs, temp, images, ok);
    } else {
      UnaliasedInit(images, temp);
      SweepEach(fs, temp, init, ok, k);
      assert init[k] == img;
      DistinctMoves(images, temp, k, n - 1);
    }
  }

  /** The last image of an unaliased listing, and its temp destination, are untouched by the
      renames of the images before it. */
  lemma SweepLastFrame(fs: Files, temp: string, images: seq<string>, ok: string -> bool)
    requires Unaliased(images, temp) && images != []
    ensures var n := |images|; var img := images[n - 1]; var prev := Sweep(fs, temp, images[..n - 1], ok);
      SameAt(prev, fs, img) && SameAt(prev, fs, temp + img)
  {
    var n := |images|;
    var init := images[..n - 1];
    var img := images[n - 1];
    forall x | x in init
      ensures img != x && img != temp + x && temp + img != x && temp + img != temp + x
    {
      var i :| 0 <= i < n - 1 && init[i] == x;
      DistinctMoves(images, temp, i, n - 1);
    }
    SweepFrame(fs, temp, init, ok, img);
    SweepFrame(fs, temp, init, ok, temp + img);
  }

  /** Dropping the last image keeps a listing unaliased. */
  lemma UnaliasedInit(images: seq<string>, temp: string)
    requires Unaliased(images, temp) && images != []
    ensures Unaliased(images[..|images| - 1], temp)
  {
    var init := images[..|images| - 1];
    assert forall i :: 0 <= i < |init| ==> init[i] == images[i];
    assert forall x :: x in init ==> x in images;
  }

  /** Two different images of an unaliased listing and their temp destinations are four
      different paths. */
  lemma DistinctMoves(images: seq<string>, temp: string, i: nat, j: nat)
    requires Unaliased(images, temp) && i < j < |images|
    ensures var a, b := images[i], images[j];
      a != b && a != temp + b && temp + a != b && temp + a != temp + b
  {
    var a, b := images[i], images[j];
    assert a in images && b in images;
    assert (temp + a)[|temp|..] == a;
    assert (temp + b)[|temp|..] == b;
  }

  /** Every match of a pattern whose prefix and suffix have no separator sits in dir itself, so
      it holds as many separators as dir. */
  lemma MatchSeparators(path: string, dir: string, pre: string, suf: string)
    requires Matches(path, dir, pre, suf) && Sep !in pre && Sep !in suf
    ensures Count(path, Sep) == Count(dir, Sep)
  {
    var mid := path[|dir + pre|..|path| - |suf|];
    assert path == path[..|dir + pre|] + mid + path[|path| - |suf|..];
    assert path == dir + pre + mid + suf;
    CountAppend(dir, pre, Sep);
    CountAppend(dir + pre, mid, Sep);
    CountAppend(dir + pre + mid, suf, Sep);
  }

  /** A match sits directly inside dir: written as another directory (ending with a separator)
      followed by a separator-free name, that directory is dir itself. */
  lemma MatchDirectory(path: string, dir: string, pre: string, suf: string, other: string, name: string)
    requires Matches(path, dir, pre, suf) && Sep !in pre && Sep !in suf
    requires dir != [] && Last(dir) == Sep && other != [] && Last(other) == Sep
    requires Sep !in name && path == other + name
    ensures other == dir
  {
    var mid := path[|dir + pre|..|path| - |suf|];
    assert path == path[..|dir + pre|] + mid + path[|path| - |suf|..];
    var tail := pre + mid + suf;
    assert path == dir + tail;
    assert path[|dir| - 1] == Sep && path[|other| - 1] == Sep;
    assert forall i :: |other| <= i < |path| ==> path[i] == name[i - |other|];
    assert forall i :: |dir| <= i < |path| ==> path[i] == tail[i - |dir|];
    assert |other| == |dir|;
    assert other == path[..|dir|];
  }

  /** A glob listing is unaliased for any temp folder that holds a separator: a temp destination
      has more separators than any match. */
  lemma GlobUnaliased(fs: Files, dir: string, pre: string, suf: string, temp: string)
    requires Sep in temp && Sep !in pre && Sep !in suf
    ensures Unaliased(Glob(fs, dir, pre, suf), temp)
  {
    var images := Glob(fs, dir, pre, suf);
    forall a, b | a in images && b in images
      ensures a != temp + b
    {
      MatchSeparators(a, dir, pre, suf);
      MatchSeparators(b, dir, pre, suf);
      CountAppend(temp, b, Sep);
    }
  }

  /** The derivative loop over a glob listing: a match is relocated to temp . match when its
      rename succeeds and is left in place, with nothing at temp . match, when it fails. */
  lemma GlobSweep(fs: Files, dir: string, pre: string, suf: string, temp: string, ok: string -> bool, img: string)
    requires Sep in temp && Sep !in pre && Sep !in suf
    requires img in fs && Matches(img, dir, pre, suf)
    ensures var r := Sweep(fs, temp, Glob(fs, dir, pre, suf), ok);
      if ok(img) then img !in r && temp + img in r && r[temp + img] == fs[img]
      else img in r && r[img] == fs[img] && temp + img !in r
  {
    var images := Glob(fs, dir, pre, suf);
    GlobUnaliased(fs, dir, pre, suf, temp);
    var k :| 0 <= k < |images| && images[k] == img;
    SweepEach(fs, temp, images, ok, k);
  }

  /** The derivative loop over a glob listing touches only the matches and their temp
      destinations. */
  lemma GlobSweepFrame(fs: Files, dir: string, pre: string, suf: string, temp: string, ok: string -> bool, p: string)
    requires !Matches(p, dir, pre, suf)
    requires forall x :: Matches(x, dir, pre, suf) ==> p != temp + x
    ensures SameAt(Sweep(fs, temp, Glob(fs, dir, pre, suf), ok), fs, p)
  {
    SweepFrame(fs, temp, Glob(fs, dir, pre, suf), ok, p);
  }
}

=== FILE: lifecycle.dfy ===
/** The life cycle of one file-valued attribute under ResourceStrategy, as pure steps over an
    abstract state: staging an upload into the temp folder, promoting a staged file into its shard
    directory, and moving stored files back to the temp folder. Each step returns the new state
    and the value the PHP method returns. */
module Lifecycle {
  import opened Strings
  import opened FileSystem
  import opened Paths

  datatype Option<T> = None | Some(value: T)

  /** The ?bool the PHP methods return: null, true or false. */
  type Status = Option<bool>

  /** An uploaded file: the name the client sent, its extension and its content. */
  datatype Upload = Upload(clientName: string, extension: string, content: Bytes)

  /** The record attribute: an upload handle not yet staged, or a string (a temp-relative path
      or a bare stored name). */
  datatype Attr = Pending(upload: Upload) | Value(text: string)

  /** The attribute read as a string: an upload handle converts to its client name. */
  function Text(a: Attr): string {
    match a
    case Pending(u) => u.clientName
    case Value(s) => s
  }

  /** The record attribute, the private oldResource slot, the errors added to the record and the
      filesystem. */
  datatype State = State(attr: Attr, oldResource: Option<string>, errors: seq<string>, files: Files)

  datatype Step<T> = Step(state: State, result: T)

  /** The outcome of moving one name to the temp folder: the filesystem after it and the status. */
  datatype Relocation = Relocation(files: Files, status: Status)

  const CANT_SAVE: string := "Cant save new file"
  const NO_TEMP: string := "No temp file"
  const CANT_MOVE: string := "Cant move file from temp"

  /** addError on the record's attribute. */
  function AddError(st: State, msg: string): State {
    st.(errors := st.errors + [msg])
  }

  /** uploadResource. An upload handle is written to the temp folder as hash.ext when saveAs
      succeeds (saveOk) and the attribute becomes its temp-relative path; otherwise an error is
      added. A string value is checked only when it is temp: a missing temp file is an error.
      On a string value isTemp() and getResourcePath(true) read the value and change nothing. */
  function UploadStep(cfg: Config, st: State, hash: string, saveOk: bool): Step<Status> {
    match st.attr
    case Pending(u) =>
      var name := hash + "." + u.extension;
      if saveOk then
        Step(st.(files := st.files[TempPath(cfg, true) + name := u.content],
                 attr := Value(TempPath(cfg, false) + name)), Some(true))
      else
        Step(AddError(st, CANT_SAVE), Some(false))
    case Value(s) =>
      if IsTempName(cfg, s) && ResolvePath(cfg, s, true) !in st.files then
        Step(AddError(st, NO_TEMP), Some(false))
      else
        Step(st, None)
  }

  /** getResourceName: an upload handle is staged first; the attribute is then read as a string. */
  function Resolve(cfg: Config, st: State, hash: string, saveOk: bool): Step<string> {
    if st.attr.Pending? then
      var staged := UploadStep(cfg, st, hash, saveOk).state;
      Step(staged, Text(staged.attr))
    else
      Step(st, Text(st.attr))
  }

  /** isTemp. */
  function IsTemp(cfg: Config, st: State, hash: string, saveOk: bool): Step<bool> {
    var r := Resolve(cfg, st, hash, saveOk);
    Step(r.state, IsTempName(cfg, r.result))
  }

  /** getResourcePath: isTemp() and then getResourceTempPath or getResourceFolderPath, each of
      which reads the resource name again. Each read of an upload handle is a staging attempt of
      its own: hash/saveOk are the outcome of the one made by isTemp(), retryHash/retryOk of the
      one the path getter makes, which happens only when the first saveAs failed. */
  function Locate(cfg: Config, st: State, hash: string, saveOk: bool, retryHash: string, retryOk: bool,
                  absolute: bool): Step<string> {
    var t := IsTemp(cfg, st, hash, saveOk);
    var r := Resolve(cfg, t.state, retryHash, retryOk);
    if t.result then Step(r.state, ResourceTempPath(cfg, r.result, absolute))
    else Step(r.state, ResourceFolderPath(cfg, r.result, absolute))
  }

  /** The collision rename of saveResource: a name already present in dir becomes
      stem_N.ext, N being the number of files in dir matching stem_*.ext. */
  function CollisionName(fs: Files, dir: string, name: string, ext: string): string {
    if dir + name !in fs then name
    else
      var stem := Filename(name);
      stem + "_" + DecimalString(|Glob(fs, dir, stem + "_", "." + ext)|) + "." + ext
  }

  /** getResourcePath on a string attribute reads it and changes nothing. */
  lemma LocateOnValue(cfg: Config, st: State, hash: string, saveOk: bool, retryHash: string, retryOk: bool,
                      absolute: bool)
    requires st.attr.Value?
    ensures Locate(cfg, st, hash, saveOk, retryHash, retryOk, absolute) == Step(st, ResolvePath(cfg, st.attr.text, absolute))
  {
  }

  /** saveResource. newHash is the second generateHash() and copyOk whether copy() succeeds when
      its source exists. Nothing is stored unless the upload did not fail and the resource is
      temp; by then the attribute is a string. */
  function SaveStep(cfg: Config, st: State, hash: string, saveOk: bool, newHash: string, copyOk: bool): Step<Status> {
    var up := UploadStep(cfg, st, hash, saveOk);
    if up.result == Some(false) then Step(up.state, None)
    else
      var t := IsTemp(cfg, up.state, hash, saveOk);
      if !t.result then Step(t.state, None)
      else StoreStep(cfg, t.state, newHash, copyOk)
  }

  /** The body of saveResource once the string attribute is known to be temp: its file is copied
      into the shard directory of newHash.ext under a collision-free name, which becomes the
      attribute; the name it replaces is kept as oldResource. */
  function StoreStep(cfg: Config, st: State, newHash: string, copyOk: bool): Step<Status>
    requires st.attr.Value?
  {
    var name := st.attr.text;
    var ext := Extension(ResolvePath(cfg, name, false));
    var named := newHash + "." + ext;
    var dir := FolderPath(cfg, named, true);
    var target := CollisionName(st.files, dir, named, ext);
    var src := ResolvePath(cfg, name, true);
    if copyOk && src in st.files then
      Step(st.(files := st.files[dir + target := st.files[src]],
               oldResource := Some(name),
               attr := Value(target)), Some(true))
    else
      Step(AddError(st, CANT_MOVE), Some(false))
  }

  /** The first half of moveResourceToTemp: a truthy name whose file exists in its shard
      directory is relocated to the temp folder under the same name. */
  function MovePrimary(cfg: Config, fs: Files, name: string, ok: string -> bool): Relocation {
    var src := FolderPath(cfg, name, true) + name;
    if Truthy(name) && src in fs then
      var moved := Relocate(fs, src, TempPath(cfg, true) + name, ok(src));
      Relocation(moved.files, Some(moved.ok))
    else
      Relocation(fs, None)
  }

  /** The primary move returns null when the name is falsy or its file is missing, and otherwise
      whether the file now sits at tempFolder . name; a failed move leaves nothing there, and no
      other path changes. */
  lemma MovePrimaryEffect(cfg: Config, fs: Files, name: string, ok: string -> bool)
    ensures var m := MovePrimary(cfg, fs, name, ok);
      var src := FolderPath(cfg, name, true) + name; var dst := TempPath(cfg, true) + name;
      && m.status == (if Truthy(name) && src in fs then Some(ok(src) && src != dst) else None)
      && (m.status == Some(true) ==> src !in m.files && dst in m.files && m.files[dst] == fs[src])
      && (m.status == Some(false) ==> dst !in m.files && (src != dst ==> SameAt(m.files, fs, src)))
      && (m.status == None ==> m.files == fs)
      && (forall p :: p != src && p != dst ==> SameAt(m.files, fs, p))
  {
  }

  /** path is a derivative of name: it matches stem.*.ext in name's shard directory. */
  predicate IsDerivative(cfg: Config, name: string, path: string) {
    Matches(path, FolderPath(cfg, name, true), Filename(name) + ".", "." + Extension(name))
  }

  /** The derivative listing of moveResourceToTemp: glob(dir . stem . '.*.' . ext) in the
      name's shard directory. */
  function Derivatives(cfg: Config, fs: Files, name: string): seq<string> {
    Glob(fs, FolderPath(cfg, name, true), Filename(name) + ".", "." + Extension(name))
  }

  /** moveResourceToTemp: the primary file, then every derivative, each sent to tempFolder
      followed by its full path; the status is the primary rename's. */
  function MoveToTemp(cfg: Config, fs: Files, name: string, ok: string -> bool): Relocation {
    var primary := MovePrimary(cfg, fs, name, ok);
    Relocation(Sweep(primary.files, TempPath(cfg, true), Derivatives(cfg, primary.files, name), ok),
               primary.status)
  }

  /** deleteResource. */
  function DeleteStep(cfg: Config, st: State, hash: string, saveOk: bool, ok: string -> bool): Step<Status> {
    var r := Resolve(cfg, st, hash, saveOk);
    var m := MoveToTemp(cfg, r.state.files, r.result, ok);
    Step(r.state.(files := m.files), m.status)
  }

  /** How deleteOldResource folds the second result into the first: a non-null second result
      replaces the first unless the first is false. */
  function Combine(first: Status, second: Status): Status {
    if first != Some(false) && second != None then second else first
  }

  /** The first half of deleteOldResource: a truthy oldResource is moved to the temp folder
      and forgotten when the move returns true. */
  function ReleaseStep(cfg: Config, st: State, ok: string -> bool): Step<Status> {
    var first :=
      if st.oldResource.Some? && Truthy(st.oldResource.value)
      then MoveToTemp(cfg, st.files, st.oldResource.value, ok)
      else Relocation(st.files, None);
    Step(st.(files := first.files,
             oldResource := if first.status == Some(true) then None else st.oldResource),
         first.status)
  }

  /** deleteOldResource. persisted is the attribute's previously persisted value, "" when the
      record has none. */
  function DeleteOldStep(cfg: Config, st: State, persisted: string, ok: string -> bool): Step<Status> {
    var first := ReleaseStep(cfg, st, ok);
    var s1 := first.state;
    if Truthy(persisted) && persisted != Text(s1.attr) then
      var second := MoveToTemp(cfg, s1.files, persisted, ok);
      Step(s1.(files := second.files), Combine(first.result, second.status))
    else
      first
  }
}

=== FILE: listing.dfy ===
/** The order in which glob reports its matches: sorted by code point, each path once. */
module Listing {

  /** a comes no later than b in code-point lexicographic order. */
  predicate Below(a: string, b: string)
    decreases |a|
  {
    a == [] || (b != [] && (a[0] < b[0] || (a[0] == b[0] && Below(a[1..], b[1..]))))
  }

  lemma {:induction false} BelowReflexive(a: string)
    ensures Below(a, a)
    decreases |a|
  {
    if a != [] {
      BelowReflexive(a[1..]);
    }
  }

  lemma {:induction false} BelowTotal(a: string, b: string)
    ensures Below(a, b) || Below(b, a)
    decreases |a|
  {
    if a != [] && b != [] && a[0] == b[0] {
      BelowTotal(a[1..], b[1..]);
    }
  }

  lemma {:induction false} BelowAntisymmetric(a: string, b: string)
    requires Below(a, b) && Below(b, a)
    ensures a == b
    decreases |a|
  {
    if a != [] {
      BelowAntisymmetric(a[1..], b[1..]);
      assert a == [a[0]] + a[1..];
      assert b == [b[0]] + b[1..];
    }
  }

  lemma {:induction false} BelowTransitive(a: string, b: string, c: string)
    requires Below(a, b) && Below(b, c)
    ensures Below(a, c)
    decreases |a|
  {
    if a != [] && a[0] == b[0] && b[0] == c[0] {
      BelowTransitive(a[1..], b[1..], c[1..]);
    }
  }

  /** m is the first element of s in code-point order. */
  predicate IsLeast(m: string, s: set<string>) {
    m in s && forall x :: x in s ==> Below(m, x)
  }

  lemma {:induction false} LeastExists(s: set<string>)
    requires s != {}
    ensures exists m :: IsLeast(m, s)
    decreases |s|
  {
    var x :| x in s;
    if s == {x} {
      BelowReflexive(x);
      assert IsLeast(x, s);
    } else {
      LeastExists(s - {x});
      var m :| IsLeast(m, s - {x});
      BelowTotal(m, x);
      if Below(m, x) {
        assert IsLeast(m, s);
      } else {
        forall y | y in s
          ensures Below(x, y)
        {
          if y == x {
            BelowReflexive(x);
          } else {
            BelowTransitive(x, m, y);
          }
        }
        assert IsLeast(x, s);
      }
    }
  }

  lemma LeastUnique(s: set<string>)
    ensures forall m, m' :: IsLeast(m, s) && IsLeast(m', s) ==> m == m'
  {
    forall m, m' | IsLeast(m, s) && IsLeast(m', s)
      ensures m == m'
    {
      BelowAntisymmetric(m, m');
    }
  }

  /** The elements of s, each once, in code-point order. */
  function Sorted(s: set<string>): (r: seq<string>)
    ensures |r| == |s|
    ensures forall x :: x in r <==> x in s
    ensures forall i, j :: 0 <= i < j < |r| ==> Below(r[i], r[j]) && r[i] != r[j]
    decreases |s|
  {
    if s == {} then []
    else
      LeastExists(s);
      LeastUnique(s);
      var m :| IsLeast(m, s);
      [m] + Sorted(s - {m})
  }
}

=== FILE: paths.dfy ===
/** Path derivation of ResourceStrategy: the shard directory derived from a name, the stored-files
    and temp folders, and how an attribute value is resolved to a path. */
module Paths {
  import opened Strings

  /** The strategy's configuration: the stored-files folder and the temp folder, both relative to
      the web root, and the web root itself (the value of Yii's @webroot alias). */
  datatype Config = Config(resourceFolder: string, tempFolder: string, webroot: string)

  /** The number of name characters the shard directory is built from ($hashLength). */
  const HASH_LENGTH: nat := 6

  /** The name without separators, cut to its first HASH_LENGTH characters: a shorter name
      keeps all of its characters and is not padded. */
  function ShardKey(hash: string): (k: string)
    ensures Sep !in k
    ensures var c := RemoveChar(hash, Sep);
      |k| == (if |c| < HASH_LENGTH then |c| else HASH_LENGTH) && k == c[..|k|]
  {
    var clean := RemoveChar(hash, Sep);
    if |clean| <= HASH_LENGTH then clean else clean[..HASH_LENGTH]
  }

  /** join(SEP, str_split(s, 2)): s cut into two-character groups joined by separators. */
  function Pairs(s: string): string
    decreases |s|
  {
    if |s| <= 2 then s else s[..2] + [Sep] + Pairs(s[2..])
  }

  /** A separator-free string splits into separator-free parts. */
  lemma SplitNoSep(s: string, k: nat)
    requires Sep !in s && k <= |s|
    ensures Sep !in s[..k] && Sep !in s[k..]
  {
    assert s == s[..k] + s[k..];
    CountAppend(s[..k], s[k..], Sep);
  }

  /** Grouping keeps the characters in order: dropping the separators gives s back. */
  lemma {:induction false} PairsKeeps(s: string)
    requires Sep !in s
    ensures RemoveChar(Pairs(s), Sep) == s
    decreases |s|
  {
    if |s| > 2 {
      var head := s[..2];
      var rest := s[2..];
      SplitNoSep(s, 2);
      PairsKeeps(rest);
      RemoveCharAppend(head + [Sep], Pairs(rest), Sep);
      RemoveCharAppend(head, [Sep], Sep);
      assert RemoveChar(head + [Sep], Sep) == head;
      assert head + rest == s;
    }
  }

  /** Grouping adds one separator between consecutive groups: ceil(n / 2) - 1 for n > 0. */
  lemma {:induction false} PairsCount(s: string)
    requires Sep !in s
    ensures Count(Pairs(s), Sep) == if s == [] then 0 else (|s| - 1) / 2
    decreases |s|
  {
    if |s| > 2 {
      var head := s[..2];
      var rest := s[2..];
      SplitNoSep(s, 2);
      PairsCount(rest);
      CountAppend(head + [Sep], Pairs(rest), Sep);
      CountAppend(head, [Sep], Sep);
    }
  }

  /** The layout of the groups: a separator after every second character and nowhere else, each
      other position holding the next character of s. So every segment but the last holds two
      characters, and the last one or two. */
  lemma {:induction false} PairsLayout(s: string)
    requires Sep !in s
    ensures |Pairs(s)| == |s| + (if s == [] then 0 else (|s| - 1) / 2)
    ensures forall i :: 0 <= i < |Pairs(s)| ==>
      if i % 3 == 2 then Pairs(s)[i] == Sep else Pairs(s)[i] == s[i - i / 3]
    decreases |s|
  {
    if |s| > 2 {
      var rest := s[2..];
      SplitNoSep(s, 2);
      PairsLayout(rest);
      var p := Pairs(s);
      assert p == s[..2] + [Sep] + Pairs(rest);
      forall i | 3 <= i < |p|
        ensures if i % 3 == 2 then p[i] == Sep else p[i] == s[i - i / 3]
      {
        assert p[i] == Pairs(rest)[i - 3];
        assert (i - 3) % 3 == i % 3 && (i - 3) / 3 == i / 3 - 1;
      }
    }
  }

  /** Grouping puts no separator at either end and yields "" only for "". */
  lemma {:induction false} PairsEnds(s: string)
    requires Sep !in s
    ensures Pairs(s) == [] <==> s == []
    ensures Pairs(s) != [] ==> Pairs(s)[0] != Sep && Pairs(s)[|Pairs(s)| - 1] != Sep
    decreases |s|
  {
    if |s| > 2 {
      var p := Pairs(s);
      var rest := s[2..];
      SplitNoSep(s, 2);
      PairsEnds(rest);
      assert p[0] == s[0];
      assert p[|p| - 1] == Pairs(rest)[|Pairs(rest)| - 1];
    }
  }

  /** getPathFromHash: the shard key cut into two-character directory segments. */
  function PathFromHash(hash: string): (r: string)
    ensures |r| >= 2 && r[0] == Sep && r[|r| - 1] == Sep
  {
    [Sep] + Pairs(ShardKey(hash)) + [Sep]
  }

  /** The shard path holds exactly the shard key's characters, in order. */
  lemma PathFromHashKeeps(hash: string)
    ensures RemoveChar(PathFromHash(hash), Sep) == ShardKey(hash)
  {
    var k := ShardKey(hash);
    var m := Pairs(k);
    PairsKeeps(k);
    RemoveCharAppend([Sep] + m, [Sep], Sep);
    RemoveCharAppend([Sep], m, Sep);
    assert RemoveChar([Sep], Sep) == [];
  }

  /** An empty shard key (a name made of separators only, or empty) gives "//". */
  lemma PathFromHashEmpty(hash: string)
    requires ShardKey(hash) == []
    ensures PathFromHash(hash) == [Sep, Sep]
  {
    assert Pairs([]) == [];
  }

  /** A key of n > 0 characters gives ceil(n / 2) directory segments: a name with fewer than six
      separator-free characters gets fewer than three segments and is not padded. */
  lemma PathFromHashSegments(hash: string)
    requires ShardKey(hash) != []
    ensures Count(PathFromHash(hash), Sep) - 1 == (|ShardKey(hash)| + 1) / 2
    ensures var n := |RemoveChar(hash, Sep)|;
      Count(PathFromHash(hash), Sep) - 1 == if n < HASH_LENGTH then (n + 1) / 2 else 3
  {
    var k := ShardKey(hash);
    var m := Pairs(k);
    PairsCount(k);
    CountAppend([Sep] + m, [Sep], Sep);
    CountAppend([Sep], m, Sep);
    assert Count([Sep], Sep) == 1;
  }

  /** With six separator-free characters c0..c5 available the shard path is exactly
      /c0c1/c2c3/c4c5/: it depends on those six characters only. */
  lemma PathFromHashSix(hash: string)
    requires |RemoveChar(hash, Sep)| >= HASH_LENGTH
    ensures var c := RemoveChar(hash, Sep);
      PathFromHash(hash) == [Sep, c[0], c[1], Sep, c[2], c[3], Sep, c[4], c[5], Sep]
  {
    var c := RemoveChar(hash, Sep);
    var k := ShardKey(hash);
    assert k == c[..6];
    PairsOfSix(k);
    AppendAssociative([Sep], Pairs(k), [Sep]);
  }

  /** Six characters form three pairs. */
  lemma PairsOfSix(k: string)
    requires |k| == 6
    ensures Pairs(k) == [k[0], k[1], Sep, k[2], k[3], Sep, k[4], k[5]]
  {
    var t := k[4..];
    var m := k[2..];
    assert Pairs(t) == t;
    assert Pairs(m) == m[..2] + [Sep] + t;
    assert Pairs(k) == k[..2] + [Sep] + Pairs(m);
  }

  /** A separator-free name of at least six characters shares its shard key with every name
      that extends it: the shard ignores any suffix. */
  lemma ShardKeyOfExtension(hash: string, suffix: string)
    requires Sep !in hash && |hash| >= HASH_LENGTH
    ensures ShardKey(hash + suffix) == hash[..HASH_LENGTH]
  {
    RemoveCharAppend(hash, suffix, Sep);
    assert (hash + RemoveChar(suffix, Sep))[..HASH_LENGTH] == hash[..HASH_LENGTH];
  }

  /** The web root when an absolute path is asked for, nothing otherwise. */
  function Root(cfg: Config, absolute: bool): string {
    if absolute then cfg.webroot else ""
  }

  /** getStorePath: the stored-files folder between separators. */
  function StorePath(cfg: Config): string {
    [Sep] + Trim(cfg.resourceFolder, Sep) + [Sep]
  }

  /** getFolderPath: the shard directory of a name, relative or under the web root. */
  function FolderPath(cfg: Config, hash: string, absolute: bool): string {
    Root(cfg, absolute) + (StorePath(cfg) + TrimLeft(PathFromHash(hash), Sep))
  }

  /** The shard directory always ends with a separator, so a name appended to it is a file
      directly inside it. */
  lemma FolderPathEndsWithSep(cfg: Config, hash: string, absolute: bool)
    ensures FolderPath(cfg, hash, absolute) != [] && Last(FolderPath(cfg, hash, absolute)) == Sep
  {
    var t := TrimLeft(PathFromHash(hash), Sep);
    var d := StorePath(cfg) + t;
    assert Last(StorePath(cfg)) == Sep;
    LastOfAppend(StorePath(cfg), t);
    LastOfAppend(Root(cfg, absolute), d);
  }

  /** getTempPath: the flat temp folder, relative or under the web root. */
  function TempPath(cfg: Config, absolute: bool): (r: string)
    ensures r != [] && r[|r| - 1] == Sep && Sep in r
  {
    Root(cfg, absolute) + ([Sep] + Trim(cfg.tempFolder, Sep) + [Sep])
  }

  /** For a name with six separator-free characters c0..c5 the shard directory is
      [webroot]/<resource folder>/c0c1/c2c3/c4c5/. */
  lemma FolderPathSix(cfg: Config, hash: string, absolute: bool)
    requires |RemoveChar(hash, Sep)| >= HASH_LENGTH
    ensures var c := RemoveChar(hash, Sep);
      FolderPath(cfg, hash, absolute)
        == Root(cfg, absolute) + StorePath(cfg) + [c[0], c[1], Sep, c[2], c[3], Sep, c[4], c[5], Sep]
  {
    var c := RemoveChar(hash, Sep);
    var q := [c[0], c[1], Sep, c[2], c[3], Sep, c[4], c[5], Sep];
    TrimmedShardSix(hash);
    AppendAssociative(Root(cfg, absolute), StorePath(cfg), q);
  }

  /** The shard path of a name with six separator-free characters, without its leading
      separator. */
  lemma TrimmedShardSix(hash: string)
    requires |RemoveChar(hash, Sep)| >= HASH_LENGTH
    ensures var c := RemoveChar(hash, Sep);
      TrimLeft(PathFromHash(hash), Sep) == [c[0], c[1], Sep, c[2], c[3], Sep, c[4], c[5], Sep]
  {
    var c := RemoveChar(hash, Sep);
    var k := ShardKey(hash);
    assert k == c[..6];
    PairsOfSix(k);
    var tail := Pairs(k) + [Sep];
    AppendAssociative([Sep], Pairs(k), [Sep]);
    TrimLeftOnce(tail, Sep);
  }

  /** The absolute shard directory is the relative one under the web root. */
  lemma FolderPathUnderWebroot(cfg: Config, hash: string)
    ensures FolderPath(cfg, hash, true) == cfg.webroot + FolderPath(cfg, hash, false)
  {
    assert FolderPath(cfg, hash, false) == StorePath(cfg) + TrimLeft(PathFromHash(hash), Sep);
  }

  /** The absolute temp folder is the relative one under the web root. */
  lemma TempPathUnderWebroot(cfg: Config)
    ensures TempPath(cfg, true) == cfg.webroot + TempPath(cfg, false)
  {
    assert TempPath(cfg, false) == [Sep] + Trim(cfg.tempFolder, Sep) + [Sep];
  }

  /** getResourceTempPath for a name: every occurrence of the relative temp folder removed, the
      rest trimmed of separators and placed in the temp folder. */
  function ResourceTempPath(cfg: Config, name: string, absolute: bool): string {
    TempPath(cfg, absolute) + Trim(RemoveAll(name, TempPath(cfg, false)), Sep)
  }

  /** getResourceFolderPath for a name: the name inside its own shard directory. */
  function ResourceFolderPath(cfg: Config, name: string, absolute: bool): string {
    FolderPath(cfg, name, absolute) + name
  }

  /** isTemp for a name: the trimmed relative temp folder occurs somewhere in it. */
  predicate IsTempName(cfg: Config, name: string) {
    Contains(name, Trim(TempPath(cfg, false), Sep))
  }

  /** getResourcePath for a name that is already a string. */
  function ResolvePath(cfg: Config, name: string, absolute: bool): string {
    if IsTempName(cfg, name) then ResourceTempPath(cfg, name, absolute)
    else ResourceFolderPath(cfg, name, absolute)
  }

  /** Trimming the relative temp folder gives the configured folder trimmed. */
  lemma TempNeedle(cfg: Config)
    ensures Trim(TempPath(cfg, false), Sep) == Trim(cfg.tempFolder, Sep)
  {
    var x := Trim(cfg.tempFolder, Sep);
    assert TempPath(cfg, false) == [Sep] + x + [Sep];
    TrimWrapped(x, Sep);
  }

  /** A name counts as temp exactly when the trimmed temp folder occurs in it at some index:
      the test is a substring test, not a prefix test. */
  lemma IsTempNameIff(cfg: Config, name: string)
    ensures IsTempName(cfg, name) <==> exists i :: OccursAt(name, Trim(cfg.tempFolder, Sep), i)
  {
    TempNeedle(cfg);
    ContainsIff(name, Trim(cfg.tempFolder, Sep));
  }

  /** Any name with the trimmed temp folder anywhere inside counts as temp, wherever it stands. */
  lemma IsTempAnywhere(cfg: Config, before: string, after: string)
    ensures IsTempName(cfg, before + Trim(cfg.tempFolder, Sep) + after)
  {
    var t := Trim(cfg.tempFolder, Sep);
    var name := before + t + after;
    assert name[|before|..|before| + |t|] == t;
    assert OccursAt(name, t, |before|);
    IsTempNameIff(cfg, name);
  }

  /** The value staging records, the relative temp folder followed by a separator-free file name,
      counts as temp. */
  lemma StagedNameIsTemp(cfg: Config, n: string)
    ensures IsTempName(cfg, TempPath(cfg, false) + n)
  {
    var x := Trim(cfg.tempFolder, Sep);
    assert TempPath(cfg, false) == [Sep] + x + [Sep];
    AppendAssociative([Sep] + x, [Sep], n);
    IsTempAnywhere(cfg, [Sep], [Sep] + n);
  }

  /** The staged value resolves to the file inside the temp folder. */
  lemma StagedNameResolves(cfg: Config, n: string, absolute: bool)
    requires Sep !in n
    ensures ResolvePath(cfg, TempPath(cfg, false) + n, absolute) == TempPath(cfg, absolute) + n
  {
    var p := TempPath(cfg, false);
    StagedNameIsTemp(cfg, n);
    NotContainedWithout(n, p, Sep);
    RemoveAllPrefix(p, n);
  }
}

=== FILE: properties.dfy ===
/** What the life cycle of a resource guarantees: staging, promotion with its collision rename,
    and moving stored files back to the temp folder. */
module Properties {
  import opened Strings
  import opened FileSystem
  import opened Paths
  import opened Lifecycle

  /** A successful staging writes the upload as hash.ext into the absolute temp folder, and the
      value it records counts as temp and resolves, relative or absolute, to that file. */
  lemma StagedUploadLocates(cfg: Config, st: State, hash: string, hash2: string, saveOk2: bool,
                            hash3: string, saveOk3: bool, absolute: bool)
    requires st.attr.Pending? && Sep !in hash && Sep !in st.attr.upload.extension
    ensures var u := st.attr.upload; var name := hash + "." + u.extension;
      var s1 := UploadStep(cfg, st, hash, true).state;
      && TempPath(cfg, true) + name in s1.files && s1.files[TempPath(cfg, true) + name] == u.content
      && IsTemp(cfg, s1, hash2, saveOk2) == Step(s1, true)
      && Locate(cfg, s1, hash2, saveOk2, hash3, saveOk3, absolute) == Step(s1, TempPath(cfg, absolute) + name)
  {
    var name := hash + "." + st.attr.upload.extension;
    NoSepInJoined(hash, st.attr.upload.extension);
    StagedNameIsTemp(cfg, name);
    StagedNameResolves(cfg, name, absolute);
  }

  /** uploadResource on an upload handle returns whether saveAs succeeded. On success the
      content is written to the absolute temp folder as hash.ext and the attribute becomes the
      relative temp path of that file; on failure only "Cant save new file" is added. */
  lemma UploadOnPending(cfg: Config, st: State, hash: string, saveOk: bool)
    requires st.attr.Pending?
    ensures var u := st.attr.upload; var name := hash + "." + u.extension;
      var r := UploadStep(cfg, st, hash, saveOk);
      && r.result == Some(saveOk)
      && r.state.oldResource == st.oldResource
      && (saveOk ==>
            && r.state.attr == Value(TempPath(cfg, false) + name)
            && r.state.files == st.files[TempPath(cfg, true) + name := u.content]
            && r.state.errors == st.errors)
      && (!saveOk ==>
            && r.state.attr == st.attr && r.state.files == st.files
            && r.state.errors == st.errors + [CANT_SAVE])
  {
  }

  /** Once staged, uploadResource finds the temp file and does nothing more, whatever the next
      hash and saveAs outcome would be. */
  lemma StagingSettles(cfg: Config, st: State, hash: string, hash2: string, saveOk2: bool)
    requires st.attr.Pending? && Sep !in hash && Sep !in st.attr.upload.extension
    ensures var s1 := UploadStep(cfg, st, hash, true).state;
      UploadStep(cfg, s1, hash2, saveOk2) == Step(s1, None)
  {
    var name := hash + "." + st.attr.upload.extension;
    NoSepInJoined(hash, st.attr.upload.extension);
    StagedNameIsTemp(cfg, name);
    StagedNameResolves(cfg, name, true);
  }

  /** getResourcePath reads the resource name twice. On a string attribute, after a first
      staging attempt that succeeds, or when the retry fails as well, both reads agree and the
      path is the resolution of the name getResourceName gives. */
  lemma LocateReadsOneName(cfg: Config, st: State, hash: string, saveOk: bool, retryHash: string, retryOk: bool,
                           absolute: bool)
    ensures st.attr.Value? || saveOk || !retryOk ==>
      Locate(cfg, st, hash, saveOk, retryHash, retryOk, absolute).result
        == ResolvePath(cfg, Resolve(cfg, st, hash, saveOk).result, absolute)
  {
    var t := IsTemp(cfg, st, hash, saveOk);
    var r1 := Resolve(cfg, st, hash, saveOk);
    var r2 := Resolve(cfg, t.state, retryHash, retryOk);
    assert t.state == r1.state;
    if st.attr.Pending? && !saveOk {
      assert r1.state.attr == st.attr;
      if !retryOk {
        assert r2.result == r1.result;
      }
    } else {
      assert r1.state.attr.Value?;
      assert r2.result == r1.result;
    }
  }

  /** When isTemp()'s staging attempt fails and the path getter's retry succeeds, the two reads
      disagree: the upload is staged as retryHash.ext and "Cant save new file" is recorded once,
      but the temp test was made on the client name. When that name does not look temp, the path
      returned misses the file just written; when it does, the path is that file. */
  lemma LocateAfterRetry(cfg: Config, st: State, hash: string, retryHash: string, absolute: bool)
    requires st.attr.Pending?
    ensures var u := st.attr.upload; var n := retryHash + "." + u.extension;
      var l := Locate(cfg, st, hash, false, retryHash, true, absolute);
      && l.state.attr == Value(TempPath(cfg, false) + n)
      && l.state.files == st.files[TempPath(cfg, true) + n := u.content]
      && l.state.errors == st.errors + [CANT_SAVE]
      && (!IsTempName(cfg, u.clientName) ==> l.result != TempPath(cfg, absolute) + n)
      && (IsTempName(cfg, u.clientName) && Sep !in retryHash && Sep !in u.extension ==>
            l.result == TempPath(cfg, absolute) + n)
  {
    var u := st.attr.upload;
    var n := retryHash + "." + u.extension;
    var staged := TempPath(cfg, false) + n;
    var t := IsTemp(cfg, st, hash, false);
    assert t == Step(AddError(st, CANT_SAVE), IsTempName(cfg, u.clientName));
    var r := Resolve(cfg, t.state, retryHash, true);
    assert r.result == staged;
    var l := Locate(cfg, st, hash, false, retryHash, true, absolute);
    assert l.result == if t.result then ResourceTempPath(cfg, staged, absolute) else ResourceFolderPath(cfg, staged, absolute);
    if IsTempName(cfg, u.clientName) {
      if Sep !in retryHash && Sep !in u.extension {
        NoSepInJoined(retryHash, u.extension);
        StagedNameIsTemp(cfg, n);
        StagedNameResolves(cfg, n, absolute);
      }
    } else {
      FolderPathUnderWebroot(cfg, staged);
      TempPathUnderWebroot(cfg);
      assert |FolderPath(cfg, staged, false)| >= |StorePath(cfg)| >= 2;
    }
  }

  /** uploadResource on a string never returns true. It returns false, adding "No temp file",
      exactly when isTemp() holds and the file getResourcePath(true) names is missing; otherwise
      it returns null and changes nothing. */
  lemma UploadOnValue(cfg: Config, st: State, hash: string, saveOk: bool)
    requires st.attr.Value?
    ensures var r := UploadStep(cfg, st, hash, saveOk);
      && r.result != Some(true)
      && (r.result == Some(false) <==>
            IsTemp(cfg, st, hash, saveOk).result && Locate(cfg, st, hash, saveOk, hash, saveOk, true).result !in st.files)
      && r.state == (if r.result == Some(false) then AddError(st, NO_TEMP) else st)
  {
    LocateReadsOneName(cfg, st, hash, saveOk, hash, saveOk, true);
  }

  /** saveResource on an upload handle whose staging fails: uploadResource's false stops it, so the
      result is null, "Cant save new file" is added and nothing is stored. */
  lemma SaveOnFailedUpload(cfg: Config, st: State, hash: string, newHash: string, copyOk: bool)
    requires st.attr.Pending?
    ensures SaveStep(cfg, st, hash, false, newHash, copyOk) == Step(AddError(st, CANT_SAVE), None)
  {
  }

  /** saveResource leaves a stored (non-temp) name alone: null, and nothing changes. */
  lemma SaveIgnoresStoredName(cfg: Config, st: State, hash: string, saveOk: bool, newHash: string, copyOk: bool)
    requires st.attr.Value? && !IsTempName(cfg, st.attr.text)
    ensures SaveStep(cfg, st, hash, saveOk, newHash, copyOk) == Step(st, None)
  {
  }

  /** saveResource on a temp value whose file is missing: uploadResource's false is swallowed, so
      the result is null, with "No temp file" added and nothing else changed. */
  lemma SaveWithoutTempFile(cfg: Config, st: State, hash: string, saveOk: bool, newHash: string, copyOk: bool)
    requires st.attr.Value? && IsTempName(cfg, st.attr.text)
    requires ResolvePath(cfg, st.attr.text, true) !in st.files
    ensures SaveStep(cfg, st, hash, saveOk, newHash, copyOk) == Step(AddError(st, NO_TEMP), None)
  {
  }

  /** The collision rename keeps a free name; a taken stem.ext becomes stem_N.ext, which keeps the
      extension and whose N reads back as the number of stem_*.ext files in the directory. */
  lemma CollisionNameShape(fs: Files, dir: string, stem: string, ext: string)
    requires Sep !in stem && Sep !in ext && '.' !in ext
    ensures var name := stem + "." + ext; var t := CollisionName(fs, dir, name, ext);
      && (dir + name !in fs ==> t == name)
      && (dir + name in fs ==>
            var k := |GlobSet(fs, dir, stem + "_", "." + ext)|;
            && Filename(t) == stem + "_" + DecimalString(k)
            && DecimalValue(DecimalString(k)) == k)
      && Extension(t) == ext
      && Sep !in t
  {
    var name := stem + "." + ext;
    PathinfoOfJoined(stem, ext);
    NoSepInJoined(stem, ext);
    if dir + name in fs {
      var k := |GlobSet(fs, dir, stem + "_", "." + ext)|;
      var stem2 := stem + "_" + DecimalString(k);
      assert Sep !in stem2;
      PathinfoOfJoined(stem2, ext);
      NoSepInJoined(stem2, ext);
      DecimalRoundTrip(k);
    }
  }

  /** Two names that start with the same HASH_LENGTH or more separator-free characters share
      their shard directory. */
  lemma ShardOfCommonPrefix(cfg: Config, hash: string, a: string, b: string, absolute: bool)
    requires Sep !in hash && HASH_LENGTH <= |hash|
    requires |hash| <= |a| && a[..|hash|] == hash
    requires |hash| <= |b| && b[..|hash|] == hash
    ensures FolderPath(cfg, a, absolute) == FolderPath(cfg, b, absolute)
  {
    assert a == hash + a[|hash|..];
    assert b == hash + b[|hash|..];
    ShardKeyOfExtension(hash, a[|hash|..]);
    ShardKeyOfExtension(hash, b[|hash|..]);
    assert PathFromHash(a) == PathFromHash(b);
  }

  /** Renamed or not, the name saveResource picks starts with the stem it was built from. */
  lemma CollisionNameExtends(fs: Files, dir: string, stem: string, ext: string)
    requires Sep !in stem && Sep !in ext && '.' !in ext
    ensures var t := CollisionName(fs, dir, stem + "." + ext, ext);
      |stem| <= |t| && t[..|stem|] == stem
  {
    var name := stem + "." + ext;
    var t := CollisionName(fs, dir, name, ext);
    PathinfoOfJoined(stem, ext);
    var rest;
    if dir + name in fs {
      var digits := DecimalString(|Glob(fs, dir, stem + "_", "." + ext)|);
      assert t == stem + "_" + digits + "." + ext;
      AppendAssociative4(stem, "_", digits, ".", ext);
      rest := "_" + digits + "." + ext;
    } else {
      AppendAssociative(stem, ".", ext);
      rest := "." + ext;
    }
    assert t == stem + rest;
    assert (stem + rest)[..|stem|] == stem;
  }

  /** With a fresh hash of HASH_LENGTH or more separator-free characters, the collision-renamed
      name lives in the shard directory the unrenamed name was checked in. */
  lemma RenamedNameKeepsShard(cfg: Config, fs: Files, newHash: string, ext: string, absolute: bool)
    requires Sep !in newHash && |newHash| >= HASH_LENGTH && Sep !in ext && '.' !in ext
    ensures var named := newHash + "." + ext;
      var t := CollisionName(fs, FolderPath(cfg, named, true), named, ext);
      FolderPath(cfg, t, absolute) == FolderPath(cfg, named, absolute)
  {
    var named := newHash + "." + ext;
    var t := CollisionName(fs, FolderPath(cfg, named, true), named, ext);
    CollisionNameExtends(fs, FolderPath(cfg, named, true), newHash, ext);
    assert named[..|newHash|] == newHash;
    ShardOfCommonPrefix(cfg, newHash, t, named, absolute);
  }

  /** saveResource on a temp value whose file exists: the file is copied into the shard
      directory of newHash.ext under the collision-checked name, the previous value goes to
      oldResource and the attribute becomes the bare new name, with true; when copy fails,
      "Cant move file from temp" is added and false returned, nothing else changing. The staged
      file itself is kept either way. */
  lemma SaveOnStagedValue(cfg: Config, st: State, hash: string, saveOk: bool, newHash: string, copyOk: bool)
    requires st.attr.Value? && IsTempName(cfg, st.attr.text)
    requires ResolvePath(cfg, st.attr.text, true) in st.files
    ensures var s := st.attr.text; var src := ResolvePath(cfg, s, true);
      var ext := Extension(ResolvePath(cfg, s, false)); var named := newHash + "." + ext;
      var dir := FolderPath(cfg, named, true); var target := CollisionName(st.files, dir, named, ext);
      var r := SaveStep(cfg, st, hash, saveOk, newHash, copyOk);
      && r.result == Some(copyOk)
      && r.state == (if copyOk
                     then st.(files := st.files[dir + target := st.files[src]], oldResource := Some(s),
                              attr := Value(target))
                     else AddError(st, CANT_MOVE))
      && src in r.state.files && r.state.files[src] == st.files[src]
  {
    var s := st.attr.text;
    assert UploadStep(cfg, st, hash, saveOk) == Step(st, None);
    assert IsTemp(cfg, st, hash, saveOk) == Step(st, true);
    assert Locate(cfg, st, hash, saveOk, hash, saveOk, false) == Step(st, ResolvePath(cfg, s, false));
    assert Locate(cfg, st, hash, saveOk, hash, saveOk, true) == Step(st, ResolvePath(cfg, s, true));
  }

  /** After a successful promotion from a fresh hash of HASH_LENGTH or more separator-free
      characters, the new attribute, unless it happens to contain the temp folder's name, resolves
      to the file the copy wrote, which holds the staged content. */
  lemma PromotedNameResolves(cfg: Config, st: State, hash: string, saveOk: bool, newHash: string,
                             hash2: string, saveOk2: bool, hash3: string, saveOk3: bool)
    requires st.attr.Value? && IsTempName(cfg, st.attr.text)
    requires ResolvePath(cfg, st.attr.text, true) in st.files
    requires Sep !in newHash && |newHash| >= HASH_LENGTH
    ensures var s := st.attr.text; var src := ResolvePath(cfg, s, true);
      var ext := Extension(ResolvePath(cfg, s, false)); var named := newHash + "." + ext;
      var target := CollisionName(st.files, FolderPath(cfg, named, true), named, ext);
      var r := SaveStep(cfg, st, hash, saveOk, newHash, true).state;
      !IsTempName(cfg, target) ==>
        var p := Locate(cfg, r, hash2, saveOk2, hash3, saveOk3, true);
        p.state == r && p.result in r.files && r.files[p.result] == st.files[src]
  {
    var s := st.attr.text;
    var ext := Extension(ResolvePath(cfg, s, false));
    var named := newHash + "." + ext;
    var dir := FolderPath(cfg, named, true);
    var target := CollisionName(st.files, dir, named, ext);
    SaveOnStagedValue(cfg, st, hash, saveOk, newHash, true);
    RenamedNameKeepsShard(cfg, st.files, newHash, ext, true);
    var r := SaveStep(cfg, st, hash, saveOk, newHash, true).state;
    if !IsTempName(cfg, target) {
      assert r.attr == Value(target);
      assert Locate(cfg, r, hash2, saveOk2, hash3, saveOk3, true).result == FolderPath(cfg, target, true) + target;
    }
  }

  /** saveResource on an upload handle is staging followed by saveResource on the staged value. */
  lemma StageThenPromote(cfg: Config, st: State, hash: string, newHash: string, copyOk: bool)
    requires st.attr.Pending? && Sep !in hash && Sep !in st.attr.upload.extension
    ensures var s1 := UploadStep(cfg, st, hash, true).state;
      SaveStep(cfg, st, hash, true, newHash, copyOk) == SaveStep(cfg, s1, hash, true, newHash, copyOk)
  {
    StagingSettles(cfg, st, hash, hash, true);
  }

  /** The staged value's extension is the upload's. */
  lemma StagedExtension(cfg: Config, hash: string, ext: string)
    requires Sep !in hash && Sep !in ext && '.' !in ext
    ensures Extension(ResolvePath(cfg, TempPath(cfg, false) + hash + "." + ext, false)) == ext
  {
    var name := hash + "." + ext;
    NoSepInJoined(hash, ext);
    AppendAssociative(TempPath(cfg, false), hash + ".", ext);
    AppendAssociative(TempPath(cfg, false), hash, ".");
    StagedNameResolves(cfg, name, false);
    BasenameUnder(TempPath(cfg, false), name);
    PathinfoOfJoined(hash, ext);
  }

  /** The whole happy path of saveResource on a fresh upload: the upload is staged in the temp
      folder and copied into the shard directory of the second hash under the collision-checked
      name; the attribute becomes that name and oldResource the staged temp path. */
  lemma UploadThenSave(cfg: Config, st: State, hash: string, newHash: string)
    requires st.attr.Pending?
    requires Sep !in hash && Sep !in st.attr.upload.extension && '.' !in st.attr.upload.extension
    requires Sep !in newHash && |newHash| >= HASH_LENGTH
    ensures var u := st.attr.upload; var name := hash + "." + u.extension;
      var files1 := st.files[TempPath(cfg, true) + name := u.content];
      var named := newHash + "." + u.extension;
      var target := CollisionName(files1, FolderPath(cfg, named, true), named, u.extension);
      var r := SaveStep(cfg, st, hash, true, newHash, true);
      && r.result == Some(true)
      && r.state.attr == Value(target)
      && r.state.oldResource == Some(TempPath(cfg, false) + name)
      && r.state.errors == st.errors
      && FolderPath(cfg, target, true) + target in r.state.files
      && r.state.files[FolderPath(cfg, target, true) + target] == u.content
      && TempPath(cfg, true) + name in r.state.files
      && r.state.files[TempPath(cfg, true) + name] == u.content
  {
    var u := st.attr.upload;
    var name := hash + "." + u.extension;
    var s1 := UploadStep(cfg, st, hash, true).state;
    StageThenPromote(cfg, st, hash, newHash, true);
    StagedUploadLocates(cfg, st, hash, hash, true, hash, true, true);
    NoSepInJoined(hash, u.extension);
    StagedNameResolves(cfg, name, true);
    StagedNameIsTemp(cfg, name);
    StagedExtension(cfg, hash, u.extension);
    AppendAssociative(TempPath(cfg, false), hash + ".", u.extension);
    AppendAssociative(TempPath(cfg, false), hash, ".");
    SaveOnStagedValue(cfg, s1, hash, true, newHash, true);
    RenamedNameKeepsShard(cfg, s1.files, newHash, u.extension, true);
  }

  /** The set glob finds in a directory holding exactly the taken name and one other file. */
  lemma GlobOfPair(dir: string, taken: string, other: string, c1: Bytes, c2: Bytes, pre: string, suf: string)
    requires !Matches(dir + taken, dir, pre, suf) && Matches(dir + other, dir, pre, suf)
    ensures |Glob(map[dir + taken := c1, dir + other := c2], dir, pre, suf)| == 1
  {
    var fs := map[dir + taken := c1, dir + other := c2];
    assert GlobSet(fs, dir, pre, suf) == {dir + other};
  }

  /** stem_d.ext for a single digit d. */
  function Numbered(stem: string, d: char, ext: string): string {
    stem + "_" + [d] + "." + ext
  }

  /** What glob(dir . stem . '_*.' . ext) makes of stem.ext and of stem_d.ext. */
  lemma NumberedMatches(dir: string, stem: string, ext: string, d: char)
    requires Sep !in stem && Sep != d
    ensures !Matches(dir + (stem + "." + ext), dir, stem + "_", "." + ext)
    ensures Matches(dir + Numbered(stem, d, ext), dir, stem + "_", "." + ext)
  {
    AppendAssociative4(dir, stem + "_", [d], ".", ext);
    assert dir + Numbered(stem, d, ext) == dir + (stem + "_") + [d] + ("." + ext);
    MatchesIff(dir + Numbered(stem, d, ext), dir, stem + "_", "." + ext);
  }

  /** A taken name is renamed after the number of glob matches. */
  lemma CollisionTaken(fs: Files, dir: string, name: string, ext: string, stem: string, k: nat)
    requires dir + name in fs && Filename(name) == stem
    requires |Glob(fs, dir, stem + "_", "." + ext)| == k
    ensures CollisionName(fs, dir, name, ext) == stem + "_" + DecimalString(k) + "." + ext
  {
  }

  /** A promoted stem.ext that is already stored next to stem_0.ext (and nothing else) is renamed
      stem_1.ext: a1b2c3.jpg beside a1b2c3_0.jpg becomes a1b2c3_1.jpg. */
  lemma CollisionExample(dir: string, stem: string, ext: string, c1: Bytes, c2: Bytes)
    requires Sep !in stem && Sep !in ext && '.' !in ext
    ensures var fs := map[dir + (stem + "." + ext) := c1, dir + Numbered(stem, '0', ext) := c2];
      CollisionName(fs, dir, stem + "." + ext, ext) == Numbered(stem, '1', ext)
  {
    var name := stem + "." + ext;
    var other := Numbered(stem, '0', ext);
    var fs := map[dir + name := c1, dir + other := c2];
    PathinfoOfJoined(stem, ext);
    NumberedMatches(dir, stem, ext, '0');
    GlobOfPair(dir, name, other, c1, c2, stem + "_", "." + ext);
    CollisionTaken(fs, dir, name, ext, stem, 1);
    assert DecimalString(1) == ['1'];
  }

  /** The renamed name is not checked again: next to stem_1.ext alone, stem.ext is renamed to
      stem_1.ext, which is taken, and the copy overwrites it. */
  lemma CollisionNotRechecked(dir: string, stem: string, ext: string, c1: Bytes, c2: Bytes)
    requires Sep !in stem && Sep !in ext && '.' !in ext
    ensures var fs := map[dir + (stem + "." + ext) := c1, dir + Numbered(stem, '1', ext) := c2];
      var t := CollisionName(fs, dir, stem + "." + ext, ext);
      t == Numbered(stem, '1', ext) && dir + t in fs
  {
    var name := stem + "." + ext;
    var other := Numbered(stem, '1', ext);
    var fs := map[dir + name := c1, dir + other := c2];
    PathinfoOfJoined(stem, ext);
    NumberedMatches(dir, stem, ext, '1');
    GlobOfPair(dir, name, other, c1, c2, stem + "_", "." + ext);
    CollisionTaken(fs, dir, name, ext, stem, 1);
    assert DecimalString(1) == ['1'];
  }

  /** A file name never matches its own derivative pattern stem.*.ext: the primary file is not
      swept with its derivatives. */
  lemma NameIsNoDerivative(cfg: Config, name: string)
    ensures !IsDerivative(cfg, name, FolderPath(cfg, name, true) + name)
  {
    NotOwnPattern(FolderPath(cfg, name, true), name);
  }

  /** In any directory, name does not match the pattern stem.*.ext built from name itself. */
  lemma NotOwnPattern(dir: string, name: string)
    ensures !Matches(dir + name, dir, Filename(name) + ".", "." + Extension(name))
  {
    var f, e := Filename(name), Extension(name);
    if Matches(dir + name, dir, f + ".", "." + e) {
      MatchedRemainder(dir, name, f + ".", "." + e);
      BasenameOfPlain(name);
      if '.' in name {
        PathinfoSplits(name);
      }
      assert false;
    }
  }

  /** The derivative loop over the listing of name's derivatives: a match is relocated to
      tempFolder . match when its rename succeeds, and otherwise stays, with nothing left at
      tempFolder . match. */
  lemma DerivativeSwept(cfg: Config, fs: Files, name: string, ok: string -> bool, img: string)
    requires img in fs && IsDerivative(cfg, name, img)
    ensures var t := TempPath(cfg, true); var r := Sweep(fs, t, Derivatives(cfg, fs, name), ok);
      if ok(img) then img !in r && t + img in r && r[t + img] == fs[img]
      else img in r && r[img] == fs[img] && t + img !in r
  {
    GlobSweep(fs, FolderPath(cfg, name, true), Filename(name) + ".", "." + Extension(name),
              TempPath(cfg, true), ok, img);
  }

  /** moveResourceToTemp relocates every derivative stem.*.ext of the name in its shard
      directory whose rename succeeds, whether or not the primary file existed. */
  lemma MoveSweepsDerivative(cfg: Config, fs: Files, name: string, ok: string -> bool, img: string)
    requires img in fs && IsDerivative(cfg, name, img) && img != TempPath(cfg, true) + name
    ensures var t := TempPath(cfg, true); var r := MoveToTemp(cfg, fs, name, ok).files;
      if ok(img) then img !in r && t + img in r && r[t + img] == fs[img]
      else img in r && r[img] == fs[img] && t + img !in r
  {
    NameIsNoDerivative(cfg, name);
    MovePrimaryEffect(cfg, fs, name, ok);
    var primary := MovePrimary(cfg, fs, name, ok);
    assert SameAt(primary.files, fs, img);
    DerivativeSwept(cfg, primary.files, name, ok, img);
  }

  /** moveResourceToTemp touches only the primary file, its temp destination, the derivative
      matches and their temp destinations. */
  lemma MoveFrame(cfg: Config, fs: Files, name: string, ok: string -> bool, p: string)
    requires p != FolderPath(cfg, name, true) + name && p != TempPath(cfg, true) + name
    requires !IsDerivative(cfg, name, p)
    requires forall x :: Matches(x, FolderPath(cfg, name, true), Filename(name) + ".", "." + Extension(name))
                         ==> p != TempPath(cfg, true) + x
    ensures SameAt(MoveToTemp(cfg, fs, name, ok).files, fs, p)
  {
    MovePrimaryEffect(cfg, fs, name, ok);
    var primary := MovePrimary(cfg, fs, name, ok);
    var dir, pre, suf, temp := FolderPath(cfg, name, true), Filename(name) + ".", "." + Extension(name), TempPath(cfg, true);
    var swept := Sweep(primary.files, temp, Glob(primary.files, dir, pre, suf), ok);
    assert MoveToTemp(cfg, fs, name, ok).files == swept;
    assert SameAt(primary.files, fs, p);
    GlobSweepFrame(primary.files, dir, pre, suf, temp, ok, p);
  }

  /** Nor is the temp destination of a separator-free name one of its derivatives. */
  lemma TempNameIsNoDerivative(cfg: Config, name: string)
    requires Sep !in name
    ensures !IsDerivative(cfg, name, TempPath(cfg, true) + name)
  {
    var dir, temp := FolderPath(cfg, name, true), TempPath(cfg, true);
    if IsDerivative(cfg, name, temp + name) {
      FolderPathEndsWithSep(cfg, name, true);
      MatchDirectory(temp + name, dir, Filename(name) + ".", "." + Extension(name), temp, name);
      NameIsNoDerivative(cfg, name);
      assert false;
    }
  }

  /** What moveResourceToTemp achieves for a separator-free name, derivatives swept included:
      after a true primary move the stored content is at tempFolder . name and nothing is left in
      the shard directory; after a false one the stored file is where it was and nothing is at the
      temp path; after a null one both paths are as they were. */
  lemma MoveKeepsPrimary(cfg: Config, fs: Files, name: string, ok: string -> bool)
    requires Sep !in name
    ensures var m := MoveToTemp(cfg, fs, name, ok);
      var src := FolderPath(cfg, name, true) + name; var dst := TempPath(cfg, true) + name;
      && m.status == (if Truthy(name) && src in fs then Some(ok(src) && src != dst) else None)
      && (m.status == Some(true) ==> src !in m.files && dst in m.files && m.files[dst] == fs[src])
      && (m.status == Some(false) ==> dst !in m.files && (src != dst ==> SameAt(m.files, fs, src)))
      && (m.status == None ==> SameAt(m.files, fs, src) && SameAt(m.files, fs, dst))
  {
    var dir, pre, suf := FolderPath(cfg, name, true), Filename(name) + ".", "." + Extension(name);
    var temp := TempPath(cfg, true);
    var src, dst := dir + name, temp + name;
    MovePrimaryEffect(cfg, fs, name, ok);
    var primary := MovePrimary(cfg, fs, name, ok);
    assert MoveToTemp(cfg, fs, name, ok).files == Sweep(primary.files, temp, Glob(primary.files, dir, pre, suf), ok);
    FolderPathEndsWithSep(cfg, name, true);
    assert Sep in dir;
    CountAppend(dir, name, Sep);
    CountAppend(temp, name, Sep);
    NameIsNoDerivative(cfg, name);
    TempNameIsNoDerivative(cfg, name);
    // A temp destination of a match carries the separators of both temp and dir.
    forall x | Matches(x, dir, pre, suf) ensures src != temp + x && dst != temp + x {
      MatchSeparators(x, dir, pre, suf);
      CountAppend(temp, x, Sep);
    }
    GlobSweepFrame(primary.files, dir, pre, suf, temp, ok, src);
    GlobSweepFrame(primary.files, dir, pre, suf, temp, ok, dst);
  }

  /** deleteResource moves the name getResourceName reads (staging a pending upload first): the
      attribute and errors are those of that read, oldResource is untouched, the result is the
      primary move's, and for a separator-free name each status has the file effect that
      MoveKeepsPrimary states. */
  lemma DeleteMovesResolvedName(cfg: Config, st: State, hash: string, saveOk: bool, ok: string -> bool)
    ensures var r := Resolve(cfg, st, hash, saveOk); var name := r.result;
      var src := FolderPath(cfg, name, true) + name; var dst := TempPath(cfg, true) + name;
      var d := DeleteStep(cfg, st, hash, saveOk, ok);
      && d.state.attr == r.state.attr && d.state.errors == r.state.errors
      && d.state.oldResource == st.oldResource
      && d.result == (if Truthy(name) && src in r.state.files then Some(ok(src) && src != dst) else None)
      && (Sep !in name && d.result == Some(true) ==>
            src !in d.state.files && dst in d.state.files && d.state.files[dst] == r.state.files[src])
      && (Sep !in name && d.result == Some(false) ==>
            dst !in d.state.files && (src != dst ==> SameAt(d.state.files, r.state.files, src)))
      && (Sep !in name && d.result == None ==>
            SameAt(d.state.files, r.state.files, src) && SameAt(d.state.files, r.state.files, dst))
  {
    var r := Resolve(cfg, st, hash, saveOk);
    MovePrimaryEffect(cfg, r.state.files, r.result, ok);
    if Sep !in r.result {
      MoveKeepsPrimary(cfg, r.state.files, r.result, ok);
    }
  }

  /** deleteOldResource's tri-state fold: false from either move wins; otherwise a later true or
      an earlier true with nothing after it gives true; null only when both are null. */
  lemma CombineCases(first: Status, second: Status)
    ensures Combine(first, second) == Some(false) <==> first == Some(false) || second == Some(false)
    ensures Combine(first, second) == Some(true) <==>
      (first != Some(false) && second == Some(true)) || (first == Some(true) && second == None)
    ensures Combine(first, second) == None <==> first == None && second == None
  {
  }

  /** deleteOldResource clears oldResource exactly when it is truthy and its move returns true,
      and touches neither the attribute nor the errors. */
  lemma DeleteOldClears(cfg: Config, st: State, persisted: string, ok: string -> bool)
    ensures var r := DeleteOldStep(cfg, st, persisted, ok);
      && (r.state.oldResource == None <==>
            st.oldResource == None
            || (Truthy(st.oldResource.value) && MoveToTemp(cfg, st.files, st.oldResource.value, ok).status == Some(true)))
      && (r.state.oldResource != None ==> r.state.oldResource == st.oldResource)
      && r.state.attr == st.attr && r.state.errors == st.errors
  {
  }

  /** When the persisted value is empty or equals the current attribute, only oldResource is
      moved and its status is the result. */
  lemma DeleteOldSkipsPersisted(cfg: Config, st: State, persisted: string, ok: string -> bool)
    requires !Truthy(persisted) || persisted == Text(st.attr)
    ensures var r := DeleteOldStep(cfg, st, persisted, ok);
      if st.oldResource.Some? && Truthy(st.oldResource.value) then
        var m := MoveToTemp(cfg, st.files, st.oldResource.value, ok);
        r.result == m.status && r.state.files == m.files
      else
        r.result == None && r.state.files == st.files
  {
  }

  /** When there is no oldResource to move, the result is the persisted value's move. */
  lemma DeleteOldOnlyPersisted(cfg: Config, st: State, persisted: string, ok: string -> bool)
    requires st.oldResource == None
    requires Truthy(persisted) && persisted != Text(st.attr)
    ensures var r := DeleteOldStep(cfg, st, persisted, ok); var m := MoveToTemp(cfg, st.files, persisted, ok);
      r.result == m.status && r.state.files == m.files && r.state.oldResource == None
  {
    CombineCases(None, MoveToTemp(cfg, st.files, persisted, ok).status);
  }

  /** When both oldResource and a different persisted value are moved, the files are those after
      both moves, oldResource is forgotten exactly when its move returned true, and the result is
      false when either move returned false, null only when both did, and true otherwise. */
  lemma DeleteOldBothMoves(cfg: Config, st: State, persisted: string, ok: string -> bool)
    requires st.oldResource.Some? && Truthy(st.oldResource.value)
    requires Truthy(persisted) && persisted != Text(st.attr)
    ensures var r := DeleteOldStep(cfg, st, persisted, ok);
      var m1 := MoveToTemp(cfg, st.files, st.oldResource.value, ok);
      var m2 := MoveToTemp(cfg, m1.files, persisted, ok);
      && r.state.files == m2.files
      && r.state.oldResource == (if m1.status == Some(true) then None else st.oldResource)
      && (r.result == Some(false) <==> m1.status == Some(false) || m2.status == Some(false))
      && (r.result == None <==> m1.status == None && m2.status == None)
      && (r.result == Some(true) <==>
            (m1.status != Some(false) && m2.status == Some(true)) || (m1.status == Some(true) && m2.status == None))
  {
    var m1 := MoveToTemp(cfg, st.files, st.oldResource.value, ok);
    CombineCases(m1.status, MoveToTemp(cfg, m1.files, persisted, ok).status);
  }

  /** After a promotion oldResource holds the staged temp path. deleteOldResource looks for it
      inside a shard directory, a path strictly longer than the staged file's, so it never moves
      the staged file as the primary. */
  lemma OldTempValueMissesStagedFile(cfg: Config, n: string)
    ensures var prev := TempPath(cfg, false) + n;
      FolderPath(cfg, prev, true) + prev != TempPath(cfg, true) + n
  {
    var prev := TempPath(cfg, false) + n;
    FolderPathUnderWebroot(cfg, prev);
    TempPathUnderWebroot(cfg);
    assert |FolderPath(cfg, prev, false)| >= |StorePath(cfg)| >= 2;
  }

  /** moveResourceToTemp on that staged temp value, as deleteOldResource runs it on oldResource
      after a promotion, leaves the staged file hash.ext as it was: it is neither the primary path
      nor a derivative, nor the temp destination of one. */
  lemma OldTempValueSparesStagedFile(cfg: Config, fs: Files, n: string, ok: string -> bool)
    requires n != [] && Sep !in n
    ensures var prev := TempPath(cfg, false) + n;
      SameAt(MoveToTemp(cfg, fs, prev, ok).files, fs, TempPath(cfg, true) + n)
  {
    var prev := TempPath(cfg, false) + n;
    var temp := TempPath(cfg, true);
    var staged := temp + n;
    var dir, pre, suf := FolderPath(cfg, prev, true), Filename(prev) + ".", "." + Extension(prev);
    OldTempValueMissesStagedFile(cfg, n);
    BasenameUnder(TempPath(cfg, false), n);
    FolderPathEndsWithSep(cfg, prev, true);
    assert Sep in dir;
    if IsDerivative(cfg, prev, staged) {
      MatchDirectory(staged, dir, pre, suf, temp, n);
      NotOwnPattern(dir, n);
      assert false;
    }
    forall x | Matches(x, dir, pre, suf) ensures staged != temp + x {
      MatchSeparators(x, dir, pre, suf);
      assert (temp + x)[|temp|..] == x;
      assert staged[|temp|..] == n;
    }
    MoveFrame(cfg, fs, prev, ok, staged);
  }
}

=== FILE: strategy.dfy ===
/** ResourceStrategy as a class: the record attribute, the private oldResource slot, the errors
    added to the record and the filesystem are fields that its methods update in place. Every
    method is proved to leave exactly the state, and return exactly the value, of the matching
    step function of Lifecycle; the properties of those steps are proved in Properties. */
module Strategy {
  import opened Strings
  import opened FileSystem
  import opened Paths
  import opened Lifecycle

  class ResourceStrategy {
    /** The resource folder, the temp folder and the web root the instance works under. */
    const cfg: Config
    /** The record attribute: an upload handle or a string. */
    var attr: Attr
    /** The name saveResource replaced, kept until deleteOldResource moves it away. */
    var oldResource: Option<string>
    /** The errors added to the record's attribute, oldest first. */
    var errors: seq<string>
    /** The files under the web root. */
    var files: Files

    /** The fields as a Lifecycle state. */
    function Snapshot(): State
      reads this
    {
      State(attr, oldResource, errors, files)
    }

    constructor (cfg: Config, attr: Attr, files: Files)
      ensures this.cfg == cfg
      ensures Snapshot() == State(attr, None, [], files)
    {
      this.cfg := cfg;
      this.attr := attr;
      this.oldResource := None;
      this.errors := [];
      this.files := files;
    }

    /** model->addError on the attribute. */
    method AddError(msg: string)
      modifies this
      ensures Snapshot() == Lifecycle.AddError(old(Snapshot()), msg)
    {
      errors := errors + [msg];
    }

    /** `if (file_exists($dst)) unlink($dst); @rename($src, $dst)`: renameOk is whether the
        platform lets the rename happen. */
    method Rename(src: string, dst: string, renameOk: bool) returns (moved: bool)
      modifies this`files
      ensures var m := Relocate(old(files), src, dst, renameOk); files == m.files && moved == m.ok
    {
      if dst in files {
        files := files - {dst};
      }
      assert files == old(files) - {dst};
      if renameOk && src in files {
        files := (files - {src})[dst := files[src]];
        moved := true;
      } else {
        moved := false;
      }
    }

    /** uploadResource. hash is what generateHash() returns and saveOk whether saveAs succeeds,
        for every staging attempt of this call. */
    method UploadResource(hash: string, saveOk: bool) returns (r: Status)
      modifies this
      ensures Step(Snapshot(), r) == UploadStep(cfg, old(Snapshot()), hash, saveOk)
      decreases if attr.Pending? then 0 else 5
    {
      if attr.Pending? {
        var file := attr.upload;
        var newFileName := hash + "." + file.extension;
        var tempFolder := TempPath(cfg, true);
        if saveOk {
          files := files[tempFolder + newFileName := file.content];
          attr := Value(TempPath(cfg, false) + newFileName);
          return Some(true);
        } else {
          AddError(CANT_SAVE);
          return Some(false);
        }
      }
      var temp := IsTemp(hash, saveOk);
      if temp {
        var path := GetResourcePath(true, hash, saveOk, hash, saveOk);
        if path !in files {
          AddError(NO_TEMP);
          return Some(false);
        }
      }
      return None;
    }

    /** getResourceName. */
    method GetResourceName(hash: string, saveOk: bool) returns (name: string)
      modifies this
      ensures Step(Snapshot(), name) == Resolve(cfg, old(Snapshot()), hash, saveOk)
      decreases if attr.Pending? then 1 else 2
    {
      if attr.Pending? {
        var _ := UploadResource(hash, saveOk);
      }
      name := Text(attr);
    }

    /** isTemp. */
    method IsTemp(hash: string, saveOk: bool) returns (temp: bool)
      modifies this
      ensures Step(Snapshot(), temp) == Lifecycle.IsTemp(cfg, old(Snapshot()), hash, saveOk)
      decreases if attr.Pending? then 2 else 3
    {
      var resourceName := GetResourceName(hash, saveOk);
      temp := Contains(resourceName, Trim(TempPath(cfg, false), Sep));
    }

    /** getResourceTempPath. */
    method GetResourceTempPath(absolute: bool, hash: string, saveOk: bool) returns (path: string)
      modifies this
      ensures var n := Resolve(cfg, old(Snapshot()), hash, saveOk);
        Step(Snapshot(), path) == Step(n.state, ResourceTempPath(cfg, n.result, absolute))
      decreases if attr.Pending? then 2 else 3
    {
      var resourceName := GetResourceName(hash, saveOk);
      path := TempPath(cfg, absolute) + Trim(RemoveAll(resourceName, TempPath(cfg, false)), Sep);
    }

    /** getResourceFolderPath. */
    method GetResourceFolderPath(absolute: bool, hash: string, saveOk: bool) returns (path: string)
      modifies this
      ensures var n := Resolve(cfg, old(Snapshot()), hash, saveOk);
        Step(Snapshot(), path) == Step(n.state, ResourceFolderPath(cfg, n.result, absolute))
      decreases if attr.Pending? then 2 else 3
    {
      var resourceName := GetResourceName(hash, saveOk);
      path := FolderPath(cfg, resourceName, absolute) + resourceName;
    }

    /** getResourcePath. hash/saveOk serve the staging attempt of isTemp(), retryHash/retryOk
        the one of the path getter. */
    method GetResourcePath(absolute: bool, hash: string, saveOk: bool, retryHash: string, retryOk: bool)
      returns (path: string)
      modifies this
      ensures Step(Snapshot(), path) == Locate(cfg, old(Snapshot()), hash, saveOk, retryHash, retryOk, absolute)
      decreases 4
    {
      var temp := IsTemp(hash, saveOk);
      if temp {
        path := GetResourceTempPath(absolute, retryHash, retryOk);
      } else {
        path := GetResourceFolderPath(absolute, retryHash, retryOk);
      }
    }

    /** saveResource. newHash is the second generateHash() and copyOk whether copy() succeeds
        when its source exists. */
    method SaveResource(hash: string, saveOk: bool, newHash: string, copyOk: bool) returns (r: Status)
      modifies this
      ensures Step(Snapshot(), r) == SaveStep(cfg, old(Snapshot()), hash, saveOk, newHash, copyOk)
    {
      r := None;
      var uploaded := UploadResource(hash, saveOk);
      if uploaded != Some(false) {
        var temp := IsTemp(hash, saveOk);
        if temp {
          r := StoreResource(hash, saveOk, newHash, copyOk);
        }
      }
    }

    /** The body of saveResource once the string attribute is known to be temp. */
    method StoreResource(hash: string, saveOk: bool, newHash: string, copyOk: bool) returns (r: Status)
      requires attr.Value?
      modifies this
      ensures Step(Snapshot(), r) == StoreStep(cfg, old(Snapshot()), newHash, copyOk)
    {
      LocateOnValue(cfg, Snapshot(), hash, saveOk, hash, saveOk, false);
      LocateOnValue(cfg, Snapshot(), hash, saveOk, hash, saveOk, true);
      var relative := GetResourcePath(false, hash, saveOk, hash, saveOk);
      var extension := Extension(relative);
      var newDir := FolderPath(cfg, newHash + "." + extension, true);
      var newFileName := FreeName(newDir, newHash + "." + extension, extension);
      var source := GetResourcePath(true, hash, saveOk, hash, saveOk);
      if copyOk && source in files {
        Adopt(newDir + newFileName, source, newFileName);
        r := Some(true);
      } else {
        AddError(CANT_MOVE);
        r := Some(false);
      }
    }

    /** A successful copy() of saveResource: the source's content is at path, the attribute takes
        name and the value it replaces is kept as oldResource. */
    method Adopt(path: string, source: string, name: string)
      requires source in files
      modifies this
      ensures Snapshot() == old(Snapshot()).(files := old(files)[path := old(files)[source]],
                                             oldResource := Some(Text(old(attr))), attr := Value(name))
    {
      files, oldResource, attr := files[path := files[source]], Some(Text(attr)), Value(name);
    }

    /** The collision rename of saveResource: a name already present in dir becomes stem_N.ext,
        N being the number of files glob(dir . stem . '_*.' . ext) lists. */
    method FreeName(dir: string, name: string, ext: string) returns (newName: string)
      ensures newName == CollisionName(files, dir, name, ext)
    {
      newName := name;
      if dir + name in files {
        var existsFiles := Glob(files, dir, Filename(name) + "_", "." + ext);
        newName := Filename(name) + "_" + DecimalString(|existsFiles|) + "." + ext;
      }
    }

    /** The first half of moveResourceToTemp: a truthy name whose file exists in its shard
        directory is renamed to the temp folder under the same name. */
    method MovePrimaryFile(name: string, ok: string -> bool) returns (status: Status)
      modifies this`files
      ensures var m := MovePrimary(cfg, old(files), name, ok); files == m.files && status == m.status
    {
      status := None;
      var oldFilePath := FolderPath(cfg, name, true) + name;
      if Truthy(name) && oldFilePath in files {
        var moved := Rename(oldFilePath, TempPath(cfg, true) + name, ok(oldFilePath));
        status := Some(moved);
      }
    }

    /** The derivative loop of moveResourceToTemp: each listed image, in order, is renamed to
        the temp folder followed by its full path. */
    method MoveImages(images: seq<string>, tempFolder: string, ok: string -> bool)
      modifies this`files
      ensures files == Sweep(old(files), tempFolder, images, ok)
    {
      for i := 0 to |images|
        invariant files == Sweep(old(files), tempFolder, images[..i], ok)
      {
        var image := images[i];
        assert images[..i + 1][..i] == images[..i];
        var _ := Rename(image, tempFolder + image, ok(image));
      }
      assert images[..|images|] == images;
    }

    /** moveResourceToTemp: the file itself, then every derivative stem.*.ext beside it, each
        moved to the temp folder; ok says which renames the platform lets happen, by source. */
    method MoveResourceToTemp(name: string, ok: string -> bool) returns (status: Status)
      modifies this`files
      ensures var m := MoveToTemp(cfg, old(files), name, ok); files == m.files && status == m.status
    {
      var tempFolder := TempPath(cfg, true);
      status := MovePrimaryFile(name, ok);
      var filteredImages := Glob(files, FolderPath(cfg, name, true), Filename(name) + ".", "." + Extension(name));
      MoveImages(filteredImages, tempFolder, ok);
    }

    /** deleteResource. */
    method DeleteResource(hash: string, saveOk: bool, ok: string -> bool) returns (r: Status)
      modifies this
      ensures Step(Snapshot(), r) == DeleteStep(cfg, old(Snapshot()), hash, saveOk, ok)
    {
      var name := GetResourceName(hash, saveOk);
      r := MoveResourceToTemp(name, ok);
    }

    /** The first half of deleteOldResource. */
    method ReleaseOldResource(ok: string -> bool) returns (status: Status)
      modifies this
      ensures Step(Snapshot(), status) == ReleaseStep(cfg, old(Snapshot()), ok)
    {
      status := None;
      if oldResource.Some? && Truthy(oldResource.value) {
        status := MoveResourceToTemp(oldResource.value, ok);
        if status == Some(true) {
          Forget();
        }
      }
    }

    /** `$this->oldResource = null`. */
    method Forget()
      modifies this
      ensures Snapshot() == old(Snapshot()).(oldResource := None)
    {
      oldResource := None;
    }

    /** deleteOldResource. persisted is the attribute's previously persisted value, "" when the
        record has none. */
    method DeleteOldResource(persisted: string, ok: string -> bool) returns (status: Status)
      modifies this
      ensures Step(Snapshot(), status) == DeleteOldStep(cfg, old(Snapshot()), persisted, ok)
    {
      status := ReleaseOldResource(ok);
      var oldFile := persisted;
      if Truthy(oldFile) && oldFile != Text(attr) {
        var status2 := MoveResourceToTemp(oldFile, ok);
        if status != Some(false) && status2 != None {
          status := status2;
        }
      }
    }
  }
}

=== FILE: strings.dfy ===
/** The PHP string built-ins the resource strategy relies on, with their PHP 8 semantics,
    specialised to the separator '/'. */
module Strings {

  /** DIRECTORY_SEPARATOR; the model fixes it to '/'. */
  const Sep: char := '/'

  /** PHP truthiness of a string: "" and "0" are false, every other string is true. */
  predicate Truthy(s: string) {
    s != "" && s != "0"
  }

  lemma AppendAssociative(a: string, b: string, c: string)
    ensures a + b + c == a + (b + c)
  {
  }

  function Last(s: string): char
    requires s != []
  {
    s[|s| - 1]
  }

  lemma LastOfAppend(a: string, b: string)
    requires b != [] || a != []
    ensures Last(a + b) == if b != [] then Last(b) else Last(a)
  {
    if b == [] {
      assert a + b == a;
    }
  }

  lemma AppendAssociative4(a: string, b: string, c: string, d: string, e: string)
    ensures a + b + c + d + e == a + (b + c + d + e)
  {
  }

  /** Number of occurrences of c in s. */
  function Count(s: string, c: char): (n: nat)
    ensures n <= |s|
    ensures n == 0 <==> c !in s
  {
    if s == [] then 0 else (if s[0] == c then 1 else 0) + Count(s[1..], c)
  }

  lemma {:induction false} CountAppend(a: string, b: string, c: char)
    ensures Count(a + b, c) == Count(a, c) + Count(b, c)
  {
    if a == [] {
      assert a + b == b;
    } else {
      assert (a + b)[1..] == a[1..] + b;
      CountAppend(a[1..], b, c);
    }
  }

  /** str_replace(c, '', s) for a single character c. */
  function RemoveChar(s: string, c: char): (r: string)
    ensures c !in r
    ensures |r| == |s| - Count(s, c)
    ensures c !in s ==> r == s
  {
    if s == [] then [] else (if s[0] == c then [] else [s[0]]) + RemoveChar(s[1..], c)
  }

  lemma {:induction false} RemoveCharAppend(a: string, b: string, c: char)
    ensures RemoveChar(a + b, c) == RemoveChar(a, c) + RemoveChar(b, c)
  {
    if a == [] {
      assert a + b == b;
    } else {
      assert (a + b)[1..] == a[1..] + b;
      RemoveCharAppend(a[1..], b, c);
      var h := if a[0] == c then [] else [a[0]];
      AppendAssociative(h, RemoveChar(a[1..], c), RemoveChar(b, c));
    }
  }

  predicate IsPrefix(p: string, s: string) {
    |p| <= |s| && s[..|p|] == p
  }

  /** t occurs in s starting at index i. */
  predicate OccursAt(s: string, t: string, i: int) {
    0 <= i <= |s| - |t| && s[i..i + |t|] == t
  }

  /** strpos(s, t) !== false. As in PHP 8, the empty needle occurs in every string. */
  predicate Contains(s: string, t: string)
    decreases |s|
  {
    IsPrefix(t, s) || (s != [] && Contains(s[1..], t))
  }

  /** Contains is exactly "occurs at some index". */
  lemma {:induction false} ContainsIff(s: string, t: string)
    ensures Contains(s, t) <==> exists i :: OccursAt(s, t, i)
    decreases |s|
  {
    if Contains(s, t) {
      if IsPrefix(t, s) {
        assert OccursAt(s, t, 0);
      } else {
        ContainsIff(s[1..], t);
        var i :| OccursAt(s[1..], t, i);
        assert s[1..][i..i + |t|] == s[i + 1..i + 1 + |t|];
        assert OccursAt(s, t, i + 1);
      }
    }
    if exists i :: OccursAt(s, t, i) {
      var i :| OccursAt(s, t, i);
      if i == 0 {
        assert IsPrefix(t, s);
      } else {
        assert s[1..][i - 1..i - 1 + |t|] == s[i..i + |t|];
        assert OccursAt(s[1..], t, i - 1);
        ContainsIff(s[1..], t);
      }
    }
  }

  /** A needle holding a character the haystack lacks never occurs in it. */
  lemma NotContainedWithout(s: string, t: string, c: char)
    requires c in t && c !in s
    ensures !Contains(s, t)
  {
    var k :| 0 <= k < |t| && t[k] == c;
    forall i | 0 <= i <= |s| - |t| ensures !OccursAt(s, t, i) {
      assert s[i..i + |t|][k] == s[i + k];
    }
    ContainsIff(s, t);
  }

  /** str_replace(pat, '', s): occurrences are removed left to right without overlap; an empty
      needle leaves s unchanged. */
  function RemoveAll(s: string, pat: string): (r: string)
    ensures |r| <= |s|
    ensures !Contains(s, pat) ==> r == s
    decreases |s|
  {
    if pat == [] || |s| < |pat| then s
    else if s[..|pat|] == pat then RemoveAll(s[|pat|..], pat)
    else [s[0]] + RemoveAll(s[1..], pat)
  }

  /** The left-to-right scan of str_replace: an occurrence at the front is removed and the scan
      goes on after it; a character that does not start an occurrence is kept and the scan goes
      on from the next one. So every occurrence met is removed, not only the first. */
  lemma RemoveAllScan(s: string, pat: string, x: char)
    requires pat != []
    ensures RemoveAll(pat + s, pat) == RemoveAll(s, pat)
    ensures !IsPrefix(pat, [x] + s) ==> RemoveAll([x] + s, pat) == [x] + RemoveAll(s, pat)
  {
    assert (pat + s)[..|pat|] == pat && (pat + s)[|pat|..] == s;
    assert ([x] + s)[1..] == s;
  }

  /** Removing a needle from itself followed by a tail that does not contain it leaves the tail. */
  lemma RemoveAllPrefix(p: string, n: string)
    requires p != [] && !Contains(n, p)
    ensures RemoveAll(p + n, p) == n
  {
    assert (p + n)[..|p|] == p;
    assert (p + n)[|p|..] == n;
  }

  /** ltrim(s, c). */
  function TrimLeft(s: string, c: char): (r: string)
    ensures |r| <= |s| && r == s[|s| - |r|..]
    ensures r == [] || r[0] != c
    ensures forall i :: 0 <= i < |s| - |r| ==> s[i] == c
    decreases |s|
  {
    if s != [] && s[0] == c then TrimLeft(s[1..], c) else s
  }

  /** One leading c in front of a string that does not start with c is all ltrim removes. */
  lemma TrimLeftOnce(q: string, c: char)
    requires q != [] && q[0] != c
    ensures TrimLeft([c] + q, c) == q
  {
    assert ([c] + q)[1..] == q;
  }

  /** rtrim(s, c). */
  function TrimRight(s: string, c: char): (r: string)
    ensures |r| <= |s| && r == s[..|r|]
    ensures r == [] || r[|r| - 1] != c
    ensures forall i :: |r| <= i < |s| ==> s[i] == c
    decreases |s|
  {
    if s != [] && s[|s| - 1] == c then TrimRight(s[..|s| - 1], c) else s
  }

  /** trim(s, c). */
  function Trim(s: string, c: char): (r: string)
    ensures r == [] || (r[0] != c && r[|r| - 1] != c)
    ensures c !in s ==> r == s
  {
    TrimRight(TrimLeft(s, c), c)
  }

  /** What trim keeps is the middle of s: only a leading and a trailing run of c go, and every
      character between them, c included, stays in place. */
  lemma TrimMiddle(s: string, c: char)
    ensures var r := Trim(s, c); var i := |s| - |TrimLeft(s, c)|;
      i + |r| <= |s| && r == s[i..i + |r|]
      && forall k :: 0 <= k < i || i + |r| <= k < |s| ==> s[k] == c
  {
    var l := TrimLeft(s, c);
    var r := TrimRight(l, c);
    assert l == s[|s| - |l|..];
    assert r == l[..|r|];
    assert forall k :: |r| <= k < |l| ==> l[k] == c;
  }

  /** Trimming a string that is already trimmed, with one c added at each end, gives it back. */
  lemma TrimWrapped(x: string, c: char)
    requires x == [] || (x[0] != c && x[|x| - 1] != c)
    ensures Trim([c] + x + [c], c) == x
  {
    var w := [c] + x + [c];
    assert w[1..] == x + [c];
    if x != [] {
      assert TrimLeft(w, c) == x + [c];
      assert (x + [c])[..|x|] == x;
    }
  }

  /** The part of s after its last c; all of s when c does not occur. */
  function AfterLast(s: string, c: char): (r: string)
    ensures c !in r && |r| <= |s|
    decreases |s|
  {
    if s == [] then []
    else if s[|s| - 1] == c then []
    else AfterLast(s[..|s| - 1], c) + [s[|s| - 1]]
  }

  /** What AfterLast returns is a suffix of s, preceded by c when it is not all of s. */
  lemma {:induction false} AfterLastSuffix(s: string, c: char)
    ensures var r := AfterLast(s, c);
      r == s[|s| - |r|..] && (|r| < |s| ==> s[|s| - |r| - 1] == c)
    decreases |s|
  {
    if s != [] && s[|s| - 1] != c {
      var init := s[..|s| - 1];
      var r := AfterLast(init, c);
      AfterLastSuffix(init, c);
      assert s[|s| - |r| - 1..] == init[|init| - |r|..] + [s[|s| - 1]];
    }
  }

  lemma AfterLastAbsent(s: string, c: char)
    requires c !in s
    ensures AfterLast(s, c) == s
  {
    AfterLastSuffix(s, c);
  }

  lemma {:induction false} AfterLastSplit(x: string, y: string, c: char)
    requires c !in y
    ensures AfterLast(x + [c] + y, c) == y
    decreases |y|
  {
    var s := x + [c] + y;
    if y != [] {
      var y' := y[..|y| - 1];
      assert s[..|s| - 1] == x + [c] + y';
      AfterLastSplit(x, y', c);
      assert y == y' + [y[|y| - 1]];
    }
  }

  /** A string holding c is what precedes its last c, then c, then what follows it. */
  lemma SplitAtLast(b: string, c: char)
    requires c in b
    ensures |AfterLast(b, c)| < |b|
    ensures b[..|b| - |AfterLast(b, c)| - 1] + [c] + AfterLast(b, c) == b
  {
    var e := AfterLast(b, c);
    AfterLastSuffix(b, c);
    assert b == b[..|b| - |e| - 1] + [b[|b| - |e| - 1]] + b[|b| - |e|..];
  }

  /** basename(p): trailing separators dropped, then the last component. */
  function Basename(p: string): (r: string)
    ensures Sep !in r
  {
    AfterLast(TrimRight(p, Sep), Sep)
  }

  /** pathinfo(p, PATHINFO_EXTENSION): what follows the last dot of the basename, or "". */
  function Extension(p: string): (r: string)
    ensures Sep !in r && '.' !in r
    ensures '.' !in Basename(p) ==> r == ""
  {
    var b := Basename(p);
    if '.' in b then AfterLastSuffix(b, '.'); AfterLast(b, '.') else ""
  }

  /** pathinfo(p, PATHINFO_FILENAME): the basename up to its last dot. */
  function Filename(p: string): (r: string)
    ensures Sep !in r
    ensures '.' !in Basename(p) ==> r == Basename(p)
  {
    var b := Basename(p);
    if '.' in b then AfterLastSuffix(b, '.'); b[..|b| - |AfterLast(b, '.')| - 1] else b
  }

  /** Filename and Extension split a dotted basename at its last dot and lose nothing. */
  lemma PathinfoSplits(p: string)
    requires '.' in Basename(p)
    ensures Filename(p) + "." + Extension(p) == Basename(p)
  {
    var b := Basename(p);
    var e := AfterLast(b, '.');
    SplitAtLast(b, '.');
    assert Extension(p) == e;
    assert Filename(p) == b[..|b| - |e| - 1];
  }

  /** A path without separators is its own basename. */
  lemma BasenameOfPlain(p: string)
    requires Sep !in p
    ensures Basename(p) == p
  {
    assert TrimRight(p, Sep) == p;
    AfterLastAbsent(p, Sep);
  }

  /** A separator-free name placed after a directory that ends with a separator is the basename,
      so its extension and file name are those of the path. */
  lemma BasenameUnder(dir: string, n: string)
    requires dir != [] && Last(dir) == Sep && n != [] && Sep !in n
    ensures Basename(dir + n) == n
    ensures Extension(dir + n) == Extension(n) && Filename(dir + n) == Filename(n)
  {
    var p := dir + n;
    assert Last(p) == Last(n);
    assert TrimRight(p, Sep) == p;
    var x := dir[..|dir| - 1];
    assert dir == x + [Sep];
    AfterLastSplit(x, n, Sep);
    BasenameOfPlain(n);
  }

  lemma NoSepInJoined(stem: string, ext: string)
    requires Sep !in stem && Sep !in ext
    ensures Sep !in stem + "." + ext
  {
    CountAppend(stem, ".", Sep);
    CountAppend(stem + ".", ext, Sep);
  }

  /** The name stem.ext, with a separator-free stem and a plain extension, splits back into them. */
  lemma PathinfoOfJoined(stem: string, ext: string)
    requires Sep !in stem && Sep !in ext && '.' !in ext
    ensures Extension(stem + "." + ext) == ext
    ensures Filename(stem + "." + ext) == stem
  {
    var p := stem + "." + ext;
    NoSepInJoined(stem, ext);
    BasenameOfPlain(p);
    assert p[|stem|] == '.';
    assert p == stem + ['.'] + ext;
    AfterLastSplit(stem, ext, '.');
    assert p[..|p| - |ext| - 1] == stem;
  }

  function DigitChar(d: nat): (c: char)
    requires d < 10
    ensures '0' <= c <= '9' && (c as int) - ('0' as int) == d
  {
    "0123456789"[d]
  }

  predicate AllDigits(s: string) {
    forall i :: 0 <= i < |s| ==> '0' <= s[i] <= '9'
  }

  /** The decimal value of a string of digits. */
  function DecimalValue(s: string): nat
    requires AllDigits(s)
  {
    if s == [] then 0
    else DecimalValue(s[..|s| - 1]) * 10 + ((s[|s| - 1] as int) - ('0' as int))
  }

  /** PHP's int-to-string conversion of a count. */
  function DecimalString(n: nat): (r: string)
    ensures r != [] && AllDigits(r)
    ensures Sep !in r && '.' !in r
  {
    if n < 10 then [DigitChar(n)] else DecimalString(n / 10) + [DigitChar(n % 10)]
  }

  /** The decimal rendering of a count reads back as that count. */
  lemma {:induction false} DecimalRoundTrip(n: nat)
    ensures DecimalValue(DecimalString(n)) == n
  {
    var s := DecimalString(n);
    if n >= 10 {
      DecimalRoundTrip(n / 10);
      assert s[..|s| - 1] == DecimalString(n / 10);
    }
  }

  /** The rendering has no leading zero: it starts with '0' only for 0 itself. */
  lemma {:induction false} DecimalNoLeadingZero(n: nat)
    ensures DecimalString(n)[0] == '0' <==> n == 0
  {
    if n >= 10 {
      DecimalNoLeadingZero(n / 10);
    }
  }
}
